=== FILE: README.md ===
# egopharm personalization core, modelled in Dafny

The Ego Pharmaceuticals marketing site is a Next.js application. Its pages are
Contentful entries, personalised by Ninetailed. This project models the site's
decision logic as pure Dafny functions and proves properties about them:

- **Content model** (`content.dfy`). The four module kinds are Hero, Infoblock,
  ImageTriplex and FeaturedNews. Each has a content-type tag; FeaturedNews has
  two tags, `featuredNews` and `6NbIn3MpiND4Hybq2U6NV8`. Modules
  can carry Ninetailed experiences, each with an audience and variants. A
  reference is either an unresolved link stub or a resolved entry.
- **Reference resolution** (`resolution.dfy`), from `getStaticProps` in
  `pages/index.tsx`. It fetches link stubs of experiences at depth 3, and
  audience and variant stubs at depth 2. The CMS is an oracle per reference
  slot. Each stub is replaced by the oracle's answer when it has one and
  kept otherwise, so after one pass a stub remains only where its fetch
  failed. Every fetch is logged as a request, so the model can state which
  fetches happen. Within one experience it also states their order: the
  experience's own fetch first, then its audience, then its variants.
- **Home page** (`homepage.dfy`): `getStaticProps` (the not-found cases,
  including a module delivered as a bare link, site settings, revalidation)
  and `Home` (one module renderer per module, in order).
- **Module rendering** (`rendering.dfy`, `ninetailed.dfy`). The dispatch from
  tag to component in `ModuleRenderer`, with server and client rendering
  both modelled. `parseExperiences`, and the two `hasExperiences`
  predicates, compared with each other.
- **Audience-based variant selection** (`personalization.dfy`), from
  `PersonalizedModule`. The selection is a first-match search over the
  module's experiences.
- **Edge middleware** (`middleware.dfy`). The response is the sequence of
  `cookies.set` calls, and the browser keeps the last cookie written under
  each name. The profile API's answers are parameters.
- **Draft-mode endpoints** (`draft.dfy`): the App Router one and the Pages
  Router one.
- **Contentful migrations** (`schema.dfy`, `migrations.dfy`). One creates the
  FeaturedNews types and allows them on the Page. The other adds
  `imageLocation` to the Hero.

These JavaScript semantics are written out where a branch depends on
them:

- truthiness (`""` is falsy and every array is truthy)
- `null !== undefined`
- `|| 1` and `|| []`
- `${array}` joining with commas
- `Array.isArray`

`Promise.all` is modelled as a sequential map. The results are the same,
because the fetches are independent and each writes only its own slot. The
request log, however, lists the fetches of one element after those of the
previous element. The real program interleaves the fetches of different
experiences and different modules, so the model claims no order between
them. It claims only the order inside one experience, which the source's
`await`s enforce: the depth-3 fetch before its audience, and the audience
before its variants.

## Model

| member | source | states |
|---|---|---|
| Content.ParseImageLocation | types/contentful.ts:98 | a string parses to an image location exactly when it is one of the two allowed labels, and to the one it labels |
| Content.ImageLocationRoundTrip | types/contentful.ts:98 | parsing the label of a location gives back that location |
| Content.ParseExperienceType | types/contentful.ts:30 | `nt_type` parses exactly for `nt_personalization` and `nt_experiment` |
| Content.KindOfTag | types/contentful.ts:76-200 | a content-type id names a module kind exactly when it is one of that kind's tags; the other ids name none |
| Content.TagDeterminesKind | types/contentful.ts:76-200 | a tag of a kind maps back to that kind, so no tag is shared by two kinds |
| Content.OnlyFeaturedNewsHasTwoTags | types/contentful.ts:189 | FeaturedNews has two content-type ids, every other kind has one |
| Resolution.MapFetched | pages/index.tsx:43-73 | the awaited `Promise.all` keeps length and order, element i is the i-th result, and the request log holds exactly the elements' requests: each of them, and nothing else |
| Resolution.ResolveLink | pages/index.tsx:23-32 | a stub without id or an entry with fields is returned untouched with no request; a stub with an id causes exactly one request at the given depth and becomes the fetched entry, or stays the stub when the fetch fails |
| Resolution.ResolveVariant | pages/index.tsx:61-66 | a variant stub with an id becomes the CMS's depth-2 answer, with exactly that one request, or stays the stub when the fetch fails; any other variant is kept with no request |
| Resolution.ResolveNested | pages/index.tsx:52-69 | the experience keeps its sys; the fetches are exactly its audience stub, if it has one with an id, followed by each variant stub with an id, in list order and all at depth 2 |
| Resolution.ResolveExperience | pages/index.tsx:44-72 | a stub with an id is fetched first, at depth 3; if that fetch fails the stub comes back with that one request; if it succeeds, the fetched entry's nested fetches follow; a stub without an id makes no request; an entry with fields makes only its nested fetches |
| Resolution.ResolveExperiences | pages/index.tsx:35-76 | a module whose `nt_experiences` is not an array is left alone with no request; otherwise every element is resolved in place and in order, and the module's log holds exactly its experiences' requests |
| Resolution.NestedOnlyFills | pages/index.tsx:52-69 | every audience or variant stub with an id becomes the CMS's depth-2 answer for that id when there is one, and stays the stub otherwise; entries, scalar fields and the variant list's length are kept |
| Resolution.ExperienceOnlyFills | pages/index.tsx:44-72 | a stub with an id whose depth-3 fetch succeeds becomes the fetched entry with its nested stubs filled; any other stub stays; an entry keeps its sys and gets its nested stubs filled |
| Resolution.ResolveOnlyFills | pages/index.tsx:35-76 | resolution keeps a module's sys, every field but `nt_experiences`, and that list's length and order; each element is filled from the CMS as above |
| Resolution.OnlyFailedStubsRemain | pages/index.tsx:23-76 | after one pass, every stub with an id left at a position the resolver visits is one whose fetch failed |
| Resolution.TotalCmsResolvesAll | pages/index.tsx:23-76 | against a CMS that answers every fetch, one pass leaves no fetchable stub at any position the resolver visits |
| Resolution.NestedRequestsIff | pages/index.tsx:54-64 | nested resolution makes no request iff it has no audience or variant stub to fetch, and is then the identity |
| Resolution.ExperienceRequestsIff | pages/index.tsx:44-72 | an experience is resolved without requests iff nothing in it is a fetchable stub, and is then unchanged |
| Resolution.NoRequestsIffFullyResolved | pages/index.tsx:35-76 | a module causes no fetch iff it is already fully resolved, and such a module comes back unchanged |
| Resolution.ExperienceRequestShape | pages/index.tsx:44-72 | an experience fetches itself at depth 3 exactly when it is a stub with an id; every other fetch it causes is at depth 2 |
| Resolution.ModuleRequestShape | pages/index.tsx:35-76 | a module fetches each experience stub with an id at depth 3, and every other fetch it causes is a depth-2 fetch of a nested reference |
| Resolution.ResolveLinkIdempotent | pages/index.tsx:23-32 | resolving a link a second time changes nothing |
| Resolution.NestedIdempotent | pages/index.tsx:52-69 | resolving nested references a second time changes nothing |
| Resolution.ExperienceIdempotent | pages/index.tsx:44-72 | resolving an experience a second time changes nothing |
| Resolution.ResolveIdempotent | pages/index.tsx:35-76 | resolving a module's experiences a second time changes nothing |
| HomePage.ResolvePage | pages/index.tsx:35-100 | fails exactly when some module arrived as a bare link (reading its fields throws); otherwise the page keeps its sys, title, slug and module count, and module i is module i with its experiences resolved |
| HomePage.GetStaticProps | pages/index.tsx:78-136 | not found iff a query throws, no home page exists, or a module of the first page arrived as a bare link; otherwise the first page resolved, the first site settings or null, and revalidation after 5 seconds |
| HomePage.Home | pages/index.tsx:138-158 | one rendered view per module, in page order, each the module renderer's output; a bare link renders nothing |
| HomePage.ResolvePageOnlyFills | pages/index.tsx:96-100 | a resolved page has the same modules, each with its experiences filled from the CMS and nothing else changed |
| HomePage.FilledKeepsWellTyped | pages/index.tsx:35-76 | filling stubs keeps a module's tag consistent with its kind, and the reverse |
| HomePage.ServerPageIsBaselines | pages/index.tsx:151-153 | on the server every delivered, well-typed module renders as its own baseline, with the component of its kind |
| HomePage.StaticHomeRendersBaselines | pages/index.tsx:78-158 | when both queries answer and every module of the home page arrived well typed, the page is found and the server renders exactly its modules, in order, each as its baseline |
| ModuleRendering.TablesFollowKinds | components/ModuleRenderer.tsx:14-29 | both tables have the same keys, exactly the known tags, and map each tag to its kind's component and prop name |
| ModuleRendering.HasExperiences | components/ModuleRenderer.tsx:47-51 | true exactly for a non-empty array; absent, null and non-array values such as a string are rejected whatever their length |
| ModuleRendering.Filter | components/ModuleRenderer.tsx:60 | the kept elements are exactly the input elements that satisfy the predicate, as a subsequence of the input in its order |
| ModuleRendering.FilterAppend | components/ModuleRenderer.tsx:60 | filtering a concatenation is the concatenation of the filtered parts |
| ModuleRendering.FilterKeepsEveryCopy | components/ModuleRenderer.tsx:60 | every copy of an accepted value is kept, duplicates included, and no copy of a rejected one |
| ModuleRendering.FilterAll | components/ModuleRenderer.tsx:60 | a predicate that holds for every element keeps the whole list |
| ModuleRendering.ParseExperiences | components/ModuleRenderer.tsx:47-62 | empty unless `hasExperiences`; otherwise exactly the SDK-accepted experiences, each mapped, in their original order; empty iff none is accepted |
| ModuleRendering.ParseAllAccepted | components/ModuleRenderer.tsx:54-62 | when the SDK accepts every experience, the result is the whole list mapped, in order |
| ModuleRendering.ComponentRenderer | components/ModuleRenderer.tsx:32-44 | null exactly for an unknown tag; otherwise the component of the tag's kind, given the whole entry under that kind's prop name |
| ModuleRendering.RenderModule | components/ModuleRenderer.tsx:68-107 | null iff the tag is missing or unknown; baseline before mount; the personalised element iff on the client with some parsed experience, keyed `tag-id` and carrying the module as baseline |
| ModuleRendering.ServerRendersBaseline | components/ModuleRenderer.tsx:86-89 | before mount a well-typed module renders with its own kind's component and prop name |
| ModuleRendering.HydrationParity | components/ModuleRenderer.tsx:86-96 | server and client output agree when the SDK accepts no experience of the module |
| ModuleRendering.RenderRef | components/ModuleRenderer.tsx:75-81 | a module delivered as a bare link has no content type and renders nothing; an entry renders as `ModuleRenderer` does |
| NinetailedLib.HasExperiences | lib/ninetailed.ts:14-16 | false for an entry without fields and for an absent or null value; the renderer's predicate on an array; a positive `length` on any other value |
| NinetailedLib.AgreesWithRenderer | lib/ninetailed.ts:14-16 | the library's `hasExperiences` agrees with the renderer's except on a non-array value with positive length, which only the library accepts |
| NinetailedLib.ListCases | lib/ninetailed.ts:14-16 | on an experience array the predicate holds iff the array is non-empty |
| Personalization.TablesMatchRenderer | components/PersonalizedModule.tsx:16-31 | the component's own tables are the renderer's tables |
| Personalization.AudienceIdOf | components/PersonalizedModule.tsx:84-85 | the audience id is `nt_audience_id` when non-empty, the audience's sys id when it is empty, and empty without an audience |
| Personalization.FindVariant | components/PersonalizedModule.tsx:77-106 | no result iff no experience matches; otherwise the first variant of the first matching experience |
| Personalization.FirstMatchUnique | components/PersonalizedModule.tsx:80-106 | the first matching position is unique |
| Personalization.PersonalizedModule | components/PersonalizedModule.tsx:33-115 | the module's own component and prop name, given the baseline while the profile is not ready, without an experience array or without a match, and the first matching experience's first variant otherwise |
| EdgeMiddleware.LastWriteIsLast | middleware.ts:20-144 | the kept cookie is the last one set under that name, and none exists iff none was set |
| EdgeMiddleware.LastWriteAppend | middleware.ts:20-144 | a later write under a name overrides every earlier one |
| EdgeMiddleware.SessionCount | middleware.ts:126 | the visit count is the profile's count when present and non-zero, and 1 when it is absent or 0 |
| EdgeMiddleware.Skipped | middleware.ts:11-17 | a path is skipped exactly when it has a dot anywhere or lies below `/api/` or `/_next/`; every other path is a page |
| EdgeMiddleware.SkippedExamples | middleware.ts:11-17 | API routes, build assets and file names are skipped; `/`, an ordinary path and `/api` without its slash are pages |
| EdgeMiddleware.ProfileIdFor | middleware.ts:29-34 | the id cookie's value when present and non-empty, else the freshly generated id |
| EdgeMiddleware.ApiStep | middleware.ts:44-134 | the GET for the visitor's id comes first, in the configured environment or `main`; a POST follows iff the GET answers non-ok; a throw writes only the error cookie with its message; two non-ok answers write nothing |
| EdgeMiddleware.Middleware | middleware.ts:7-148 | API, `_next` and dotted paths get no cookie and no call; other paths get the test cookie, then the id cookie; without an API key nothing more; with one the first call is the GET for this visitor's id |
| EdgeMiddleware.GetSucceeded | middleware.ts:110-134 | after a successful GET: experiences and profile cookies iff present in the response, returning visitor iff the id cookie existed, count `session.count \|\| 1`, the request's id kept, no error cookie |
| EdgeMiddleware.CreateSucceeded | middleware.ts:62-109 | after a failed GET and a successful POST: a non-empty server id overwrites the id cookie; the experiences cookie iff present, holding the decisions; a first-session profile snapshot; both for 300 seconds; no error cookie |
| EdgeMiddleware.BothFailed | middleware.ts:62-75 | when GET and POST both fail: no snapshot or error cookie, and the request's id is kept |
| EdgeMiddleware.ErrorCookieIffThrew | middleware.ts:136-145 | the error cookie exists iff a call threw and carries its message; then no snapshot cookie is written and the id cookie stays |
| DraftRoute.SlugOf | app/api/draft/route.ts:8 | a missing or empty slug becomes "/", any other slug is kept |
| DraftRoute.RedirectPath | app/api/draft/route.ts:21-26 | the target always starts with "/"; home maps to "/", a rooted slug is kept and any other slug gets "/" prefixed |
| DraftRoute.Get | app/api/draft/route.ts:5-30 | 401 "Invalid token" iff the secret is absent, unconfigured or different; otherwise draft mode on and a redirect to the mapped slug |
| DraftRoute.RedirectPathIdempotent | app/api/draft/route.ts:21-26 | mapping a redirect target again gives the same target |
| DraftApi.RedirectPath | pages/api/draft.ts:15 | "/" for slug 'home' or a falsy slug, else "/" before the interpolated slug |
| DraftApi.Handler | pages/api/draft.ts:3-16 | 401 iff the secret is not strictly equal to the configured value, undefined included; otherwise preview mode on and a redirect |
| DraftApi.UnsetSecretAdmitsAnyone | pages/api/draft.ts:7-8 | with the secret variable unset, a request with no secret gets preview mode |
| DraftApi.GuardedHandler | pages/api/draft.ts:3-16 | preview mode iff a secret is configured and the request carries exactly it; agrees with the as-written handler whenever a secret is configured |
| DraftApi.GuardedAgreesWithAppRoute | app/api/draft/route.ts:11-13 | for a single secret, the corrected handler admits exactly the requests the App Router endpoint admits |
| DraftApi.SlugMappingsCompared | pages/api/draft.ts:15 | both endpoints map a plain slug alike; for a rooted slug this one produces a doubled leading slash |
| Schema.FindField | contentful/migrate-featured-news.ts:127 | the position of the first field with the id, or none iff no field has it |
| FeaturedNewsMigration.FindLinkValidation | contentful/migrate-featured-news.ts:129 | the position of the first validation with a link-type list, or none iff none has one |
| FeaturedNewsMigration.ReplaceById | contentful/migrate-featured-news.ts:132-134 | same length; every field with the id becomes the new field and the others are kept in place |
| FeaturedNewsMigration.AddFeaturedNews | contentful/migrate-featured-news.ts:126-143 | updated iff the modules link list exists and lacks 'featuredNews'; the two no-op outcomes tell a missing `modules` field or validation list apart from a list without a link validation; the update appends it to that list and changes nothing else: the type's id, name, display field and other fields are kept, and the `modules` field keeps its attributes, item type, link type and other validations |
| FeaturedNewsMigration.AddFeaturedNewsIdempotent | contentful/migrate-featured-news.ts:126-143 | a second run changes nothing and never updates; when the Page has a modules link list, the second run reports the id as already included |
| FeaturedNewsMigration.CreatedTypesMatchContentModel | contentful/migrate-featured-news.ts:34-110 | FeaturedNews is created under the id the content model maps to FeaturedNews, its `items` link only to the item type, the item type is no module, and both display their title field |
| FeaturedNewsMigration.AddedIdIsFeaturedNews | contentful/migrate-featured-news.ts:130-131 | after the edit the Page accepts 'featuredNews', the id the content model maps to FeaturedNews |
| FeaturedNewsMigration.RunMigration | contentful/migrate-featured-news.ts:21-149 | the run aborts iff a type creation fails with an error other than Conflict, naming that error; otherwise a failed Page fetch, an unneeded edit, a failed update and a successful one each give their own outcome, and none aborts |
| HeroImageLocationMigration.AddImageLocation | contentful/migrate-hero-image-location.ts:35-56 | existing fields are kept as a prefix; the new field is appended iff no field has id `imageLocation`; afterwards one does |
| HeroImageLocationMigration.AddImageLocationIdempotent | contentful/migrate-hero-image-location.ts:35-56 | adding the field twice equals adding it once |
| HeroImageLocationMigration.ImageLocationFieldMatchesContentModel | contentful/migrate-hero-image-location.ts:42-56 | the field is an optional Symbol whose allowed values are exactly the Hero's image-location labels, with the default among them |
| HeroImageLocationMigration.RunMigration | contentful/migrate-hero-image-location.ts:31-64 | fails iff the fetch fails or the update of a type without the field fails; already present iff the field exists; otherwise the field is appended |

## Left out

- The Ninetailed SDK (`Experience`, `ExperienceMapper.isExperienceEntry`, `ExperienceMapper.mapExperience`, `useProfile`) is external. Its judgements are function parameters, and the profile state is an input. The SDK-side mapping from a decision to a variant index is not modelled.
- `PersonalizedModule`'s retry timer (500 ms re-renders while loading, at most 10) is a rendering schedule. It is left out because it does not change which props are chosen. An unknown content type there renders an undefined component and fails, so the model requires a known tag. Debug logging and the `error` value of `useProfile` are not modelled, because they do not affect the result.
- The middleware's `config.matcher` regex is left out. It is enforced by Next.js before the middleware runs. The model uses the middleware's own path test.
- HTTP, `crypto.randomUUID` and `new Date().toISOString()` are parameters, and the API's answers are outcomes. The URL strings are represented by the call's organization, environment and profile id. `httpOnly` and `sameSite` are left out because they are the same on every cookie.
- EdgeMiddleware.SessionCount: a NaN `session.count` is not representable with integers. NaN is falsy and would become 1.
- The CMS client is an oracle per reference slot (experience, audience, variant). It is assumed to return entries of the slot's type, with the requested id. Malformed entries (a non-link without fields, null array elements, an `nt_variants` that is not an array) are not represented.
- HomePage.GetStaticProps: the preview-widget fetch of all experiences and audiences is not modelled. Its throw would also give not-found. A missing `modules` field is not represented. Fetches made before a not-found outcome are not logged.
- ModuleRendering.RenderModule, ModuleRendering.ComponentRenderer: `ContentTypeMap` and `propNameMap` are plain object literals, so a content-type id naming an inherited property (`constructor`, `toString`, `__proto__`) passes their truthiness guards and renders a non-component. The model treats every id outside the five tags as unknown, because the content model has no such type.
- Navigation, TopBanner, Footer, the presentational module components, `Head` metadata, and `nt_config` are not modelled. They render data without deciding anything.
- `contentful/migrate.ts`, the disable-draft routes and the providers are not part of this model.
- Migrations: the management client, `.env` loading and the missing-credentials exit are left out as I/O. The content-type creations are given by their outcomes.
- Draft mode and preview mode are modelled as a flag on the redirect; the cookies that Next.js sets are not modelled.

## Findings

| source | as written | input that shows it | evidently intended | confidence | as-written member | corrected member |
|---|---|---|---|---|---|---|
| pages/api/draft.ts:7-8 | `secret !== process.env.CONTENTFUL_PREVIEW_SECRET`: an absent query parameter is `undefined`, and so is an unset variable | `GET /api/draft` with no query while CONTENTFUL_PREVIEW_SECRET is unset: preview mode is turned on and the request is redirected to "/" | preview mode only for a request carrying a configured secret, as the App Router endpoint does (there an absent parameter is `null`, which never equals `undefined`) | medium, not executed | DraftApi.Handler (shown by DraftApi.UnsetSecretAdmitsAnyone) | DraftApi.GuardedHandler |

There is a second difference between the two draft endpoints. The slug is
a query parameter of the request. For a slug that already starts with "/",
the Pages Router endpoint produces a target beginning with "//"
(`DraftApi.SlugMappingsCompared`). So `GET /api/draft?slug=/evil.example`
redirects to `//evil.example`, which browsers read as an off-site,
protocol-relative address. Together with the finding above, no secret is
needed to send such a request. It is not recorded as a finding, because
the intended behaviour is not evident: the App Router endpoint passes a
slug that starts with "//" through unchanged as well, so neither endpoint
shows a target format that excludes off-site addresses.

=== FILE: content.dfy ===
/** The content model of types/contentful.ts: CMS entries, references that
    may arrive as link stubs, the Module sum type, Ninetailed experiences and
    audiences, and the page. */
module Content {
  import opened Wrappers

  /** Content-type identifiers of the four module types. FeaturedNews is
      registered in the CMS under two identifiers. */
  const HeroTag := "hero"
  const InfoblockTag := "infoblock"
  const ImageTriplexTag := "imageTriplex"
  const FeaturedNewsTag := "featuredNews"
  const FeaturedNewsSecondTag := "6NbIn3MpiND4Hybq2U6NV8"

  /** The `sys` block of an entry. The content-type id is kept as raw data
      because renderers read it at run time and guard against odd values. */
  datatype Sys = Sys(id: string, contentTypeId: Option<string>)

  /** An entry with its fields attached. */
  datatype Entry<T> = Entry(sys: Sys, fields: T)

  /** A reference as the CMS delivers it: a link stub (sys.type 'Link', no
      fields) or an entry whose fields were included. */
  datatype Ref<T> = Link(id: string) | Resolved(entry: Entry<T>) {

    /** The referenced entry's sys.id. */
    function Id(): string {
      match this
      case Link(id) => id
      case Resolved(e) => e.sys.id
    }

    /** A stub that a fetch-by-id would be issued for: no fields and a
        non-empty sys.id. */
    predicate IsFetchableStub() {
      Link? && id != ""
    }
  }

  datatype Asset = Asset(url: string, title: string)

  /** The two admissible values of a Hero's `imageLocation`. */
  datatype ImageLocation = RightSide | RightOverlay

  function ImageLocationLabel(l: ImageLocation): string {
    match l
    case RightSide => "Right side"
    case RightOverlay => "Right overlay"
  }

  /** Reads an `imageLocation` string; any other string is not a value of
      the field's type. */
  function ParseImageLocation(s: string): (r: Option<ImageLocation>)
    ensures r.Some? ==> ImageLocationLabel(r.value) == s
    ensures r.None? ==> forall l: ImageLocation :: ImageLocationLabel(l) != s
  {
    if s == "Right side" then Some(RightSide)
    else if s == "Right overlay" then Some(RightOverlay)
    else None
  }

  lemma ImageLocationRoundTrip(l: ImageLocation)
    ensures ParseImageLocation(ImageLocationLabel(l)) == Some(l)
  {
    match l
    case RightSide =>
    case RightOverlay =>
      assert ImageLocationLabel(l) != "Right side";
  }

  /** `nt_type` of an experience. */
  datatype ExperienceType = Personalization | Experiment

  function ExperienceTypeLabel(t: ExperienceType): string {
    match t
    case Personalization => "nt_personalization"
    case Experiment => "nt_experiment"
  }

  function ParseExperienceType(s: string): (r: Option<ExperienceType>)
    ensures r.Some? ==> ExperienceTypeLabel(r.value) == s
    ensures r.None? ==> forall t: ExperienceType :: ExperienceTypeLabel(t) != s
  {
    if s == "nt_personalization" then Some(Personalization)
    else if s == "nt_experiment" then Some(Experiment)
    else None
  }

  /** An audience always carries its `nt_audience_id`. */
  datatype Audience = Audience(name: string, description: Option<string>, audienceId: string)

  /** An experience: its audience and its variant list are both optional,
      and every variant is itself a module. */
  datatype Experience = Experience(
    name: string,
    description: Option<string>,
    experienceType: ExperienceType,
    audience: Option<Ref<Audience>>,
    variants: Option<seq<Ref<Module>>>)

  /** The value found under a module's `nt_experiences` key at run time.
      The declared type is an optional array; the code also guards against
      `null` and non-array values (whose `length` may or may not be
      positive). */
  datatype ExperienceList =
    | Absent
    | Null
    | NonArray(positiveLength: bool)
    | List(items: seq<Ref<Experience>>)

  datatype ImageTriplexItem = ImageTriplexItem(
    title: string, backgroundImage: Asset, body: string,
    ctaText: Option<string>, ctaLink: Option<string>)

  datatype FeaturedNewsItem = FeaturedNewsItem(
    title: string, image: Asset, body: string, url: Option<string>)

  /** The closed sum of page modules. */
  datatype Module =
    | Hero(title: string, subtitle: Option<string>, backgroundImage: Asset,
           ctaText: Option<string>, ctaLink: Option<string>,
           imageLocation: Option<ImageLocation>, experiences: ExperienceList)
    | Infoblock(title: string, body: string, ctaText: Option<string>,
                // `backgroundImage?`; renamed because Hero's required
                // `backgroundImage` has a different type
                ctaLink: Option<string>, optionalImage: Option<Asset>,
                experiences: ExperienceList)
    | ImageTriplex(title: string, triplexItems: seq<Entry<ImageTriplexItem>>,
                   experiences: ExperienceList)
    | FeaturedNews(title: string, newsItems: seq<Entry<FeaturedNewsItem>>,
                   experiences: ExperienceList)

  datatype ModuleKind = HeroKind | InfoblockKind | ImageTriplexKind | FeaturedNewsKind

  function KindOf(m: Module): ModuleKind {
    match m
    case Hero(_, _, _, _, _, _, _) => HeroKind
    case Infoblock(_, _, _, _, _, _) => InfoblockKind
    case ImageTriplex(_, _, _) => ImageTriplexKind
    case FeaturedNews(_, _, _) => FeaturedNewsKind
  }

  /** The content-type ids an entry of each kind may carry. */
  function TagsOf(k: ModuleKind): set<string> {
    match k
    case HeroKind => {HeroTag}
    case InfoblockKind => {InfoblockTag}
    case ImageTriplexKind => {ImageTriplexTag}
    case FeaturedNewsKind => {FeaturedNewsSecondTag, FeaturedNewsTag}
  }

  /** The module kind a content-type id denotes, if any. */
  function KindOfTag(tag: string): (r: Option<ModuleKind>)
    ensures r.Some? ==> tag in TagsOf(r.value)
    ensures r.None? <==> forall k: ModuleKind :: tag !in TagsOf(k)
  {
    if tag == HeroTag then Some(HeroKind)
    else if tag == InfoblockTag then Some(InfoblockKind)
    else if tag == ImageTriplexTag then Some(ImageTriplexKind)
    else if tag == FeaturedNewsTag || tag == FeaturedNewsSecondTag then Some(FeaturedNewsKind)
    else None
  }

  /** Every accepted tag belongs to exactly one kind. */
  lemma TagDeterminesKind(tag: string, k: ModuleKind)
    requires tag in TagsOf(k)
    ensures KindOfTag(tag) == Some(k)
  {
  }

  /** FeaturedNews is the only kind with more than one accepted tag. */
  lemma OnlyFeaturedNewsHasTwoTags(k: ModuleKind)
    ensures |TagsOf(k)| == (if k == FeaturedNewsKind then 2 else 1)
  {
    if k == FeaturedNewsKind {
      assert FeaturedNewsSecondTag != FeaturedNewsTag by {
        assert FeaturedNewsSecondTag[0] != FeaturedNewsTag[0];
      }
    }
  }

  /** An entry whose runtime tag agrees with its declared module shape. */
  predicate WellTyped(e: Entry<Module>) {
    e.sys.contentTypeId.Some? && e.sys.contentTypeId.value in TagsOf(KindOf(e.fields))
  }

  datatype SiteSettings = SiteSettings(siteName: Option<string>, logo: Option<Asset>)

  /** A page: slug and the ordered module list. A module the delivery API
      could not include (an unpublished entry, say) arrives as a bare link. */
  datatype Page = Page(title: string, slug: string, modules: seq<Ref<Module>>)
}

=== FILE: draft.dfy ===
/** app/api/draft/route.ts: the App Router draft-mode endpoint. A shared
    secret gates draft mode; the slug is mapped to the path to redirect to. */
module DraftRoute {
  import opened Wrappers
  import opened Strings

  /** What a draft endpoint answers: 401 with a message, or a redirect
      after turning on draft (preview) mode. */
  datatype DraftResponse =
    | Unauthorized(status: nat, message: string)
    | Redirect(path: string, draftEnabled: bool)

  const InvalidToken := "Invalid token"

  /** `secret !== process.env.CONTENTFUL_PREVIEW_SECRET`, negated. The query
      value is a string or null, the variable a string or undefined, so an
      absent secret never matches. */
  predicate SecretAccepted(secret: Option<string>, configured: Option<string>) {
    secret.Some? && configured.Some? && secret.value == configured.value
  }

  /** `searchParams.get('slug') || '/'`. */
  function SlugOf(slug: Option<string>): (s: string)
    ensures slug.None? || slug.value == "" ==> s == "/"
    ensures slug.Some? && slug.value != "" ==> s == slug.value
  {
    if slug.None? || slug.value == "" then "/" else slug.value
  }

  /** The redirect target: 'home' and '/home' go to the root, a slug
      without a leading slash gets one, any other slug is kept. */
  function RedirectPath(slug: string): (path: string)
    ensures StartsWith(path, "/")
    ensures slug == "home" || slug == "/home" ==> path == "/"
    ensures slug != "/home" && StartsWith(slug, "/") ==> path == slug
    ensures slug != "home" && !StartsWith(slug, "/") ==> path == "/" + slug
  {
    assert slug == "home" ==> !StartsWith(slug, "/") by {
      if slug == "home" { assert slug[0] == 'h'; }
    }
    if slug == "home" || slug == "/home" then "/"
    else if !StartsWith(slug, "/") then "/" + slug
    else slug
  }

  /** `GET`. */
  function Get(secret: Option<string>, slug: Option<string>, configured: Option<string>): (r: DraftResponse)
    ensures r.Unauthorized? <==> !SecretAccepted(secret, configured)
    ensures r.Unauthorized? ==> r == Unauthorized(401, InvalidToken)
    ensures r.Redirect? ==> r.draftEnabled && configured.Some? && secret == configured
    ensures r.Redirect? ==> StartsWith(r.path, "/") && r.path == RedirectPath(SlugOf(slug))
  {
    if !SecretAccepted(secret, configured) then Unauthorized(401, InvalidToken)
    else Redirect(RedirectPath(SlugOf(slug)), true)
  }

  /** Mapping a path is idempotent: a redirect target maps to itself, except
      that '/home' maps to the root. */
  lemma RedirectPathIdempotent(slug: string)
    ensures RedirectPath(RedirectPath(slug)) == RedirectPath(slug)
  {
  }
}

/** pages/api/draft.ts: the Pages Router preview endpoint. */
module DraftApi {
  import opened Wrappers
  import opened Strings
  import DraftRoute

  /** A `req.query` value: absent, one string, or repeated parameters. */
  datatype QueryValue = Missing | Single(value: string) | Multiple(values: seq<string>)

  /** JavaScript truthiness of a query value; an array is always truthy. */
  predicate Truthy(q: QueryValue) {
    match q
    case Missing => false
    case Single(s) => s != ""
    case Multiple(_) => true
  }

  /** The text `${q}` inserts; arrays are joined with commas. */
  function Interpolate(q: QueryValue): string {
    match q
    case Missing => "undefined"
    case Single(s) => s
    case Multiple(vs) => Join(vs, ",")
  }

  /** `secret !== process.env.CONTENTFUL_PREVIEW_SECRET`, negated: strict
      equality of a query value with a string or undefined. */
  predicate SecretAccepted(secret: QueryValue, configured: Option<string>) {
    match secret
    case Missing => configured.None?
    case Single(s) => configured.Some? && configured.value == s
    case Multiple(_) => false
  }

  /** `slug === 'home' || !slug ? '/' : `/${slug}``. */
  function RedirectPath(slug: QueryValue): (path: string)
    ensures StartsWith(path, "/")
    ensures slug == Single("home") || !Truthy(slug) ==> path == "/"
    ensures slug != Single("home") && Truthy(slug) ==> path == "/" + Interpolate(slug)
  {
    if slug == Single("home") || !Truthy(slug) then "/" else "/" + Interpolate(slug)
  }

  /** `handler`, as written. */
  function Handler(secret: QueryValue, slug: QueryValue, configured: Option<string>): (r: DraftRoute.DraftResponse)
    ensures r.Unauthorized? <==> !SecretAccepted(secret, configured)
    ensures r.Unauthorized? ==> r == DraftRoute.Unauthorized(401, DraftRoute.InvalidToken)
    ensures r.Redirect? ==> r.draftEnabled && StartsWith(r.path, "/") && r.path == RedirectPath(slug)
  {
    if !SecretAccepted(secret, configured) then DraftRoute.Unauthorized(401, DraftRoute.InvalidToken)
    else DraftRoute.Redirect(RedirectPath(slug), true)
  }

  /** With the secret variable unset, a request that sends no secret at all
      passes the check and turns preview mode on. */
  lemma UnsetSecretAdmitsAnyone()
    ensures Handler(Missing, Missing, None) == DraftRoute.Redirect("/", true)
  {
  }

  /** The handler with the check it evidently intends: preview mode only for
      a request carrying the configured secret. */
  function GuardedHandler(secret: QueryValue, slug: QueryValue, configured: Option<string>): (r: DraftRoute.DraftResponse)
    ensures r.Redirect? <==> configured.Some? && secret == Single(configured.value)
    ensures r.Redirect? ==> r == Handler(secret, slug, configured)
    ensures configured.Some? ==> r == Handler(secret, slug, configured)
  {
    if configured.None? then DraftRoute.Unauthorized(401, DraftRoute.InvalidToken)
    else Handler(secret, slug, configured)
  }

  /** Given a single secret, the guarded handler admits exactly the requests
      the App Router endpoint admits. */
  lemma GuardedAgreesWithAppRoute(secret: string, configured: Option<string>)
    ensures GuardedHandler(Single(secret), Missing, configured).Redirect? <==>
            DraftRoute.Get(Some(secret), None, configured).Redirect?
  {
  }

  /** The two endpoints agree on a non-empty slug without a leading slash
      other than 'home', and differ on one that has a leading slash: this
      endpoint doubles the slash. */
  lemma SlugMappingsCompared(slug: string)
    requires slug != ""
    ensures slug != "home" && !StartsWith(slug, "/") ==>
              RedirectPath(Single(slug)) == DraftRoute.RedirectPath(slug)
    ensures StartsWith(slug, "/") ==>
              RedirectPath(Single(slug)) == "/" + slug && StartsWith(RedirectPath(Single(slug)), "//")
    ensures StartsWith(slug, "/") && slug != "/home" ==> DraftRoute.RedirectPath(slug) == slug
  {
    if StartsWith(slug, "/") {
      assert slug != "home" by { assert slug[0] == '/'; }
      assert ("/" + slug)[..2] == "/" + slug[..1];
    }
  }
}

=== FILE: homepage.dfy ===
/** pages/index.tsx: `getStaticProps` (page query, per-module reference
    resolution, site settings, not-found) and `Home` (one renderer per
    module, in page order). The two queries are given by their outcomes. */
module HomePage {
  import opened Wrappers
  import opened Content
  import opened Resolution
  import opened ModuleRendering

  /** The page query: content type 'page', slug 'home', depth 10. */
  const PageContentType := "page"
  const HomeSlug := "home"
  const PageInclude: nat := 10
  /** The site-settings query: its content type id, depth 2, limit 1. */
  const SettingsContentType := "6b7cR8MAmg1gzxiibBMiG7"
  /** Incremental static regeneration interval, in seconds. */
  const RevalidateSeconds: nat := 5

  datatype StaticProps =
    | NotFound
    | Props(page: Entry<Page>, siteSettings: Option<Entry<SiteSettings>>, revalidate: nat)

  /** Every module of the page arrived with its fields. */
  predicate ModulesDelivered(page: Page) {
    forall i :: 0 <= i < |page.modules| ==> page.modules[i].Resolved?
  }

  /** `resolveExperiences` applied to one element of `modules`. */
  function ResolveModule(cms: Cms, m: Ref<Module>): Fetched<Ref<Module>> {
    match m
    case Resolved(e) =>
      var r := ResolveExperiences(cms, e);
      Fetched(Resolved(r.value), r.requests)
    case Link(_) => Fetched(m, [])
  }

  /** Resolves the experiences of every module of a page, all modules
      independently. A module that arrived as a bare link has no `fields`,
      so reading its `nt_experiences` throws: None. */
  function ResolvePage(cms: Cms, page: Entry<Page>): (r: Option<Fetched<Entry<Page>>>)
    ensures r.None? <==> exists i :: 0 <= i < |page.fields.modules| && page.fields.modules[i].Link?
    ensures r.Some? ==>
              && r.value.value.sys == page.sys
              && r.value.value.fields.title == page.fields.title
              && r.value.value.fields.slug == page.fields.slug
              && |r.value.value.fields.modules| == |page.fields.modules|
              && forall i :: 0 <= i < |page.fields.modules| ==>
                   r.value.value.fields.modules[i] == Resolved(ResolveExperiences(cms, page.fields.modules[i].entry).value)
  {
    if !ModulesDelivered(page.fields) then None
    else
      var modules := MapFetched(m => ResolveModule(cms, m), page.fields.modules);
      Some(Fetched(Entry(page.sys, page.fields.(modules := modules.value)), modules.requests))
  }

  /** `getStaticProps`. `pages` is the outcome of the query for entries of
      type `PageContentType` with slug `HomeSlug` at depth `PageInclude`, and
      `settings` that of the query for `SettingsContentType` at depth 2, limit
      1 (None: the query threw). A throw anywhere, an empty page result and a
      module without fields give not-found. */
  function GetStaticProps(cms: Cms, pages: Option<seq<Entry<Page>>>,
                          settings: Option<seq<Entry<SiteSettings>>>): (r: Fetched<StaticProps>)
    ensures r.value.NotFound? <==>
              pages.None? || pages.value == [] || !ModulesDelivered(pages.value[0].fields) || settings.None?
    ensures r.value.Props? ==>
              && ResolvePage(cms, pages.value[0]).Some?
              && r.value.page == ResolvePage(cms, pages.value[0]).value.value
              && r.value.siteSettings == (if settings.value == [] then None else Some(settings.value[0]))
              && r.value.revalidate == RevalidateSeconds
  {
    match pages
    case None => Fetched(NotFound, [])
    case Some(items) =>
      if |items| == 0 then Fetched(NotFound, [])
      else match ResolvePage(cms, items[0])
        case None => Fetched(NotFound, [])
        case Some(resolved) =>
          match settings
          case None => Fetched(NotFound, resolved.requests)
          case Some(ss) =>
            var siteSettings := if |ss| > 0 then Some(ss[0]) else None;
            Fetched(Props(resolved.value, siteSettings, RevalidateSeconds), resolved.requests)
  }

  /** `Home`: one `ModuleRenderer` per module, in page order. */
  function Home<X>(isClient: bool, isEntry: Ref<Experience> -> bool, mapExp: Ref<Experience> -> X,
                   page: Page): (views: seq<View<X>>)
    ensures |views| == |page.modules|
    ensures forall i :: 0 <= i < |page.modules| ==>
              views[i] == RenderRef(isClient, isEntry, mapExp, page.modules[i])
  {
    seq(|page.modules|, i requires 0 <= i < |page.modules| => RenderRef(isClient, isEntry, mapExp, page.modules[i]))
  }

  /** Resolution neither adds, drops nor reorders modules, and each module
      is its original with its experiences filled from the CMS. */
  lemma ResolvePageOnlyFills(cms: Cms, page: Entry<Page>)
    ensures var r := ResolvePage(cms, page);
            r.Some? ==>
              && |r.value.value.fields.modules| == |page.fields.modules|
              && forall i :: 0 <= i < |page.fields.modules| ==>
                   && page.fields.modules[i].Resolved?
                   && r.value.value.fields.modules[i].Resolved?
                   && ModuleFilled(cms, page.fields.modules[i].entry, r.value.value.fields.modules[i].entry)
  {
    if ResolvePage(cms, page).Some? {
      forall i | 0 <= i < |page.fields.modules|
        ensures page.fields.modules[i].Resolved?
        ensures ModuleFilled(cms, page.fields.modules[i].entry, ResolvePage(cms, page).value.value.fields.modules[i].entry)
      {
        ResolveOnlyFills(cms, page.fields.modules[i].entry);
      }
    }
  }

  /** Filling references keeps a module's tag and shape, hence its
      well-typedness. */
  lemma FilledKeepsWellTyped(cms: Cms, before: Entry<Module>, after: Entry<Module>)
    requires ModuleFilled(cms, before, after)
    ensures WellTyped(after) <==> WellTyped(before)
  {
    assert KindOf(after.fields) == KindOf(before.fields.(experiences := after.fields.experiences));
  }

  /** On the server, a page of delivered, well-typed modules renders, module
      by module and in order, each module's baseline with the component of
      its kind. */
  lemma ServerPageIsBaselines<X>(isEntry: Ref<Experience> -> bool, mapExp: Ref<Experience> -> X, page: Page)
    requires forall i :: 0 <= i < |page.modules| ==> page.modules[i].Resolved? && WellTyped(page.modules[i].entry)
    ensures forall i :: 0 <= i < |page.modules| ==>
              Home(false, isEntry, mapExp, page)[i] ==
                Element(ComponentOf(KindOf(page.modules[i].entry.fields)), PropNameOf(KindOf(page.modules[i].entry.fields)),
                        page.modules[i].entry)
  {
    forall i | 0 <= i < |page.modules|
      ensures Home(false, isEntry, mapExp, page)[i] ==
                Element(ComponentOf(KindOf(page.modules[i].entry.fields)), PropNameOf(KindOf(page.modules[i].entry.fields)),
                        page.modules[i].entry)
    {
      ServerRendersBaseline(isEntry, mapExp, page.modules[i].entry);
    }
  }

  /** End to end: when every module of the home page arrived and is well
      typed, and both queries answer, the static props are found and the
      server renders exactly the page's modules, in order, each as its
      baseline. */
  lemma StaticHomeRendersBaselines<X>(cms: Cms, pages: Option<seq<Entry<Page>>>,
                                      settings: Option<seq<Entry<SiteSettings>>>,
                                      isEntry: Ref<Experience> -> bool, mapExp: Ref<Experience> -> X)
    requires pages.Some? && pages.value != [] && settings.Some?
    requires forall i :: 0 <= i < |pages.value[0].fields.modules| ==>
               pages.value[0].fields.modules[i].Resolved? && WellTyped(pages.value[0].fields.modules[i].entry)
    ensures GetStaticProps(cms, pages, settings).value.Props?
    ensures var page := GetStaticProps(cms, pages, settings).value.page.fields;
            && |page.modules| == |pages.value[0].fields.modules|
            && forall i :: 0 <= i < |page.modules| ==>
                 && page.modules[i].Resolved?
                 && Home(false, isEntry, mapExp, page)[i] ==
                      Element(ComponentOf(KindOf(page.modules[i].entry.fields)),
                              PropNameOf(KindOf(page.modules[i].entry.fields)), page.modules[i].entry)
  {
    var original := pages.value[0];
    var page := GetStaticProps(cms, pages, settings).value.page;
    ResolvePageOnlyFills(cms, original);
    forall i | 0 <= i < |page.fields.modules|
      ensures page.fields.modules[i].Resolved? && WellTyped(page.fields.modules[i].entry)
    {
      FilledKeepsWellTyped(cms, original.fields.modules[i].entry, page.fields.modules[i].entry);
    }
    ServerPageIsBaselines(isEntry, mapExp, page.fields);
  }
}

=== FILE: middleware.dfy ===
/** middleware.ts: the edge step that skips non-page paths, gets or creates
    the visitor id, and writes the Ninetailed cookies from the outcome of the
    profile API calls. The HTTP calls, `crypto.randomUUID` and the clock are
    parameters; the response is the sequence of `cookies.set` calls. */
module EdgeMiddleware {
  import opened Wrappers
  import opened Strings

  const ProfileIdCookie := "ninetailed_id"
  const ExperiencesCookie := "ninetailed_experiences"
  const ProfileCookie := "ninetailed_profile"
  const TestCookie := "middleware_test"
  const ErrorCookie := "middleware_error"

  /** Cookie lifetimes, in seconds. */
  const FiveMinutes: nat := 60 * 5
  const OneYear: nat := 60 * 60 * 24 * 365

  /** Environment name used when none is configured. */
  const DefaultEnvironment := "main"

  /** One experience decision as the API reports it; the middleware only
      copies the list into a cookie. */
  datatype Decision = Decision(experienceId: string, variantIndex: nat)

  /** `data.profile`: its id, audiences and `session.count`, each optional. */
  datatype ProfileData = ProfileData(id: Option<string>, audiences: Option<seq<string>>, sessionCount: Option<int>)

  /** The parsed body of a successful profile response. */
  datatype ApiData = ApiData(profile: Option<ProfileData>, experiences: Option<seq<Decision>>)

  /** How one API call ended: it threw (network or JSON error), answered
      non-ok, or answered ok with a body. */
  datatype ApiOutcome = Threw(error: string) | NotOk | Ok(data: ApiData)

  /** The profile API: GET by profile id, and POST to create a profile. */
  datatype Api = Api(getProfile: string -> ApiOutcome, createProfile: ApiOutcome)

  datatype ApiCall =
    | GetProfile(organization: string, environment: string, profileId: string)
    | CreateProfile(organization: string, environment: string)

  /** The environment variables the middleware reads; an empty string stands
      for an unset variable. */
  datatype Config = Config(apiKey: string, environment: string, production: bool)

  datatype CookieValue =
    | Text(text: string)
    | DecisionList(decisions: seq<Decision>)
    | ProfileSnapshot(id: Option<string>, audiences: seq<string>, isReturningVisitor: bool, count: int)

  /** A `cookies.set` call; every cookie is readable by client code. */
  datatype Cookie = Cookie(name: string, value: CookieValue, maxAge: nat, secure: bool)

  datatype Response = Response(cookies: seq<Cookie>, calls: seq<ApiCall>)

  /** The cookie a browser keeps under `name`: the last one set. */
  function LastWrite(cookies: seq<Cookie>, name: string): Option<Cookie>
    decreases |cookies|
  {
    if cookies == [] then None
    else if cookies[|cookies| - 1].name == name then Some(cookies[|cookies| - 1])
    else LastWrite(cookies[..|cookies| - 1], name)
  }

  /** `LastWrite` finds the last cookie of that name, and none only when no
      cookie of that name was set. */
  lemma {:induction false} LastWriteIsLast(cookies: seq<Cookie>, name: string)
    ensures LastWrite(cookies, name).None? <==> forall i :: 0 <= i < |cookies| ==> cookies[i].name != name
    ensures LastWrite(cookies, name).Some? ==>
              exists i :: 0 <= i < |cookies| && cookies[i] == LastWrite(cookies, name).value &&
                          cookies[i].name == name &&
                          forall j :: i < j < |cookies| ==> cookies[j].name != name
    decreases |cookies|
  {
    if cookies == [] {
    } else if cookies[|cookies| - 1].name == name {
      var last := |cookies| - 1;
      assert cookies[last] == LastWrite(cookies, name).value;
    } else {
      var init := cookies[..|cookies| - 1];
      LastWriteIsLast(init, name);
      assert forall i :: 0 <= i < |init| ==> init[i] == cookies[i];
      if LastWrite(init, name).Some? {
        var k :| 0 <= k < |init| && init[k] == LastWrite(init, name).value && init[k].name == name &&
                 forall j :: k < j < |init| ==> init[j].name != name;
        assert cookies[k] == LastWrite(cookies, name).value;
        assert forall j :: k < j < |cookies| ==> cookies[j].name != name;
      }
    }
  }

  lemma {:induction false} LastWriteAppend(a: seq<Cookie>, b: seq<Cookie>, name: string)
    ensures LastWrite(a + b, name) == if LastWrite(b, name).Some? then LastWrite(b, name) else LastWrite(a, name)
    decreases |b|
  {
    if b == [] {
      assert a + b == a;
    } else {
      assert (a + b)[..|a + b| - 1] == a + b[..|b| - 1];
      LastWriteAppend(a, b[..|b| - 1], name);
    }
  }

  /** Requests for API routes, Next.js internals and files pass untouched. */
  predicate Skipped(path: string): (b: bool)
    // a path with a dot anywhere (a file name) is skipped
    ensures (exists i :: 0 <= i < |path| && path[i] == '.') ==> b
    // so is anything below /api/ or /_next/, whatever follows
    ensures |path| >= 5 && path[..5] == "/api/" ==> b
    ensures |path| >= 7 && path[..7] == "/_next/" ==> b
    // a dot-free path outside both prefixes is a page, and only such a path
    ensures !b ==> forall i :: 0 <= i < |path| ==> path[i] != '.'
    ensures b ==> (|path| >= 5 && path[..5] == "/api/") || (|path| >= 7 && path[..7] == "/_next/") ||
                  exists i :: 0 <= i < |path| && path[i] == '.'
  {
    StartsWith(path, "/api/") || StartsWith(path, "/_next/") || '.' in path
  }

  /** Which requests count as page requests: the root and ordinary paths do,
      API routes, build assets and files do not; `/api` without its slash is
      a page. */
  lemma SkippedExamples()
    ensures Skipped("/api/draft") && Skipped("/_next/static/app.js") && Skipped("/favicon.ico")
    ensures !Skipped("/") && !Skipped("/news/latest") && !Skipped("/api")
  {
    assert "/api/draft"[..5] == "/api/";
    assert "/_next/static/app.js"[..7] == "/_next/";
    assert "/favicon.ico"[8] == '.';
    var page := "/news/latest";
    assert page[1] == 'n';
    assert forall i :: 0 <= i < |page| ==> page[i] in {'/', 'n', 'e', 'w', 's', 'l', 'a', 't'};
  }

  function IdCookie(profileId: string, config: Config): Cookie {
    Cookie(ProfileIdCookie, Text(profileId), OneYear, config.production)
  }

  function ExperiencesCookieOf(data: ApiData, config: Config): seq<Cookie> {
    if data.experiences.Some? then [Cookie(ExperiencesCookie, DecisionList(data.experiences.value), FiveMinutes, config.production)]
    else []
  }

  function ProfileCookieOf(data: ApiData, isReturningVisitor: bool, count: int, config: Config): seq<Cookie> {
    if data.profile.Some? then
      [Cookie(ProfileCookie,
              ProfileSnapshot(data.profile.value.id, data.profile.value.audiences.GetOr([]), isReturningVisitor, count),
              FiveMinutes, config.production)]
    else []
  }

  /** `data.profile.session?.count || 1`. */
  function SessionCount(p: ProfileData): (count: int)
    ensures count != 0
    ensures p.sessionCount.Some? && p.sessionCount.value != 0 ==> count == p.sessionCount.value
    ensures p.sessionCount.None? || p.sessionCount.value == 0 ==> count == 1
  {
    match p.sessionCount
    case Some(c) => if c != 0 then c else 1
    case None => 1
  }

  /** A non-empty `data.profile.id`, which replaces the visitor id. */
  function ServerId(data: ApiData): Option<string> {
    if data.profile.Some? && data.profile.value.id.Some? && data.profile.value.id.value != "" then
      data.profile.value.id
    else None
  }

  /** Everything after the id cookie, for a configured API key. */
  function ApiStep(config: Config, api: Api, profileId: string, isNewVisitor: bool): (r: Response)
    // the GET for this id always comes first, in the configured environment or "main"
    ensures |r.calls| >= 1
    ensures r.calls[0] == GetProfile(config.apiKey, if config.environment == "" then DefaultEnvironment else config.environment, profileId)
    // a profile is created exactly when the GET answers non-ok
    ensures |r.calls| == 2 <==> api.getProfile(profileId).NotOk?
    ensures |r.calls| == 2 ==> r.calls[1] == CreateProfile(config.apiKey, r.calls[0].environment)
    ensures |r.calls| <= 2
    // a throw writes the error cookie and nothing else
    ensures api.getProfile(profileId).Threw? ==>
              r.cookies == [Cookie(ErrorCookie, Text(api.getProfile(profileId).error), FiveMinutes, false)]
    ensures api.getProfile(profileId).NotOk? && api.createProfile.Threw? ==>
              r.cookies == [Cookie(ErrorCookie, Text(api.createProfile.error), FiveMinutes, false)]
    // two non-ok answers write nothing
    ensures api.getProfile(profileId).NotOk? && api.createProfile.NotOk? ==> r.cookies == []
    // the test cookie belongs to the step before
    ensures forall i :: 0 <= i < |r.cookies| ==> r.cookies[i].name != TestCookie
  {
    var env := if config.environment == "" then DefaultEnvironment else config.environment;
    var get := GetProfile(config.apiKey, env, profileId);
    match api.getProfile(profileId)
    case Threw(e) => Response([Cookie(ErrorCookie, Text(e), FiveMinutes, false)], [get])
    case Ok(data) =>
      var count := if data.profile.Some? then SessionCount(data.profile.value) else 1;
      Response(ExperiencesCookieOf(data, config) + ProfileCookieOf(data, !isNewVisitor, count, config), [get])
    case NotOk =>
      var create := CreateProfile(config.apiKey, env);
      match api.createProfile
      case Threw(e) => Response([Cookie(ErrorCookie, Text(e), FiveMinutes, false)], [get, create])
      case NotOk => Response([], [get, create])
      case Ok(data) =>
        var idCookie := if ServerId(data).Some? then [IdCookie(ServerId(data).value, config)] else [];
        Response(idCookie + ExperiencesCookieOf(data, config) + ProfileCookieOf(data, false, 1, config),
                 [get, create])
  }

  /** The visitor is new exactly when the request carries no (or an empty)
      id cookie. */
  predicate IsNewVisitor(idCookie: Option<string>) {
    idCookie.None? || idCookie.value == ""
  }

  /** The id used for this request: the cookie's, or a freshly generated one. */
  function ProfileIdFor(idCookie: Option<string>, freshId: string): (id: string)
    ensures IsNewVisitor(idCookie) ==> id == freshId
    ensures !IsNewVisitor(idCookie) ==> id == idCookie.value
  {
    if IsNewVisitor(idCookie) then freshId else idCookie.value
  }

  /** `middleware`. */
  function Middleware(config: Config, api: Api, path: string, idCookie: Option<string>,
                      freshId: string, now: string): (r: Response)
    // skipped paths get no cookie and cause no call; all others get the test cookie first
    ensures Skipped(path) <==> r.cookies == []
    ensures Skipped(path) ==> r.calls == []
    ensures !Skipped(path) ==> r.cookies[0] == Cookie(TestCookie, Text(now), FiveMinutes, false)
    // the visitor id cookie is written second, before the API key is looked at
    ensures !Skipped(path) ==> |r.cookies| >= 2 && r.cookies[1] == IdCookie(ProfileIdFor(idCookie, freshId), config)
    // without an API key nothing else happens
    ensures !Skipped(path) && config.apiKey == "" ==>
              r.cookies == r.cookies[..2] && r.calls == []
    // with one, the first call is the GET for this visitor's id
    ensures !Skipped(path) && config.apiKey != "" ==>
              |r.calls| >= 1 && r.calls[0].GetProfile? && r.calls[0].profileId == ProfileIdFor(idCookie, freshId)
  {
    if Skipped(path) then Response([], [])
    else
      var test := Cookie(TestCookie, Text(now), FiveMinutes, false);
      var profileId := ProfileIdFor(idCookie, freshId);
      var idC := IdCookie(profileId, config);
      if config.apiKey == "" then Response([test, idC], [])
      else
        var rest := ApiStep(config, api, profileId, IsNewVisitor(idCookie));
        Response([test, idC] + rest.cookies, rest.calls)
  }

  /** The experiences and profile cookies written after a profile response. */
  function Snapshots(data: ApiData, isReturningVisitor: bool, count: int, config: Config): seq<Cookie> {
    ExperiencesCookieOf(data, config) + ProfileCookieOf(data, isReturningVisitor, count, config)
  }

  lemma SnapshotsLastWrite(data: ApiData, isReturningVisitor: bool, count: int, config: Config, name: string)
    ensures var w := LastWrite(Snapshots(data, isReturningVisitor, count, config), name);
            && (name != ExperiencesCookie && name != ProfileCookie ==> w.None?)
            && (name == ExperiencesCookie ==> w == (if data.experiences.Some? then
                  Some(Cookie(ExperiencesCookie, DecisionList(data.experiences.value), FiveMinutes, config.production)) else None))
            && (name == ProfileCookie ==> w == (if data.profile.Some? then
                  Some(Cookie(ProfileCookie, ProfileSnapshot(data.profile.value.id, data.profile.value.audiences.GetOr([]),
                                                             isReturningVisitor, count), FiveMinutes, config.production))
                  else None))
  {
    LastWriteAppend(ExperiencesCookieOf(data, config), ProfileCookieOf(data, isReturningVisitor, count, config), name);
  }

  /** A successful GET: the experiences cookie exactly when the response has
      experiences, the profile cookie exactly when it has a profile, recording
      the visitor as returning iff the id cookie was present, and the visit
      count `session.count || 1`; the id cookie keeps this request's id. */
  lemma GetSucceeded(config: Config, api: Api, path: string, idCookie: Option<string>,
                     freshId: string, now: string)
    requires !Skipped(path) && config.apiKey != ""
    requires api.getProfile(ProfileIdFor(idCookie, freshId)).Ok?
    ensures var data := api.getProfile(ProfileIdFor(idCookie, freshId)).data;
            var r := Middleware(config, api, path, idCookie, freshId, now);
            && |r.calls| == 1
            && LastWrite(r.cookies, ProfileIdCookie) == Some(IdCookie(ProfileIdFor(idCookie, freshId), config))
            && (LastWrite(r.cookies, ExperiencesCookie).Some? <==> data.experiences.Some?)
            && (data.experiences.Some? ==>
                  LastWrite(r.cookies, ExperiencesCookie).value.value == DecisionList(data.experiences.value) &&
                  LastWrite(r.cookies, ExperiencesCookie).value.maxAge == FiveMinutes)
            && (LastWrite(r.cookies, ProfileCookie).Some? <==> data.profile.Some?)
            && (data.profile.Some? ==>
                  LastWrite(r.cookies, ProfileCookie).value.value ==
                    ProfileSnapshot(data.profile.value.id, data.profile.value.audiences.GetOr([]),
                                    !IsNewVisitor(idCookie), SessionCount(data.profile.value)) &&
                  LastWrite(r.cookies, ProfileCookie).value.maxAge == FiveMinutes)
            && LastWrite(r.cookies, ErrorCookie).None?
  {
    var data := api.getProfile(ProfileIdFor(idCookie, freshId)).data;
    var count := if data.profile.Some? then SessionCount(data.profile.value) else 1;
    var prefix := [Cookie(TestCookie, Text(now), FiveMinutes, false), IdCookie(ProfileIdFor(idCookie, freshId), config)];
    var snaps := Snapshots(data, !IsNewVisitor(idCookie), count, config);
    ResponseShape(config, api, path, idCookie, freshId, now);
    PrefixLastWrite(prefix, snaps, ProfileIdCookie);
    PrefixLastWrite(prefix, snaps, ExperiencesCookie);
    PrefixLastWrite(prefix, snaps, ProfileCookie);
    PrefixLastWrite(prefix, snaps, ErrorCookie);
    SnapshotsLastWrite(data, !IsNewVisitor(idCookie), count, config, ProfileIdCookie);
    SnapshotsLastWrite(data, !IsNewVisitor(idCookie), count, config, ExperiencesCookie);
    SnapshotsLastWrite(data, !IsNewVisitor(idCookie), count, config, ProfileCookie);
    SnapshotsLastWrite(data, !IsNewVisitor(idCookie), count, config, ErrorCookie);
  }

  /** The test and id cookies followed by the API step's cookies. */
  lemma ResponseShape(config: Config, api: Api, path: string, idCookie: Option<string>, freshId: string, now: string)
    requires !Skipped(path) && config.apiKey != ""
    ensures var rest := ApiStep(config, api, ProfileIdFor(idCookie, freshId), IsNewVisitor(idCookie));
            Middleware(config, api, path, idCookie, freshId, now) ==
              Response([Cookie(TestCookie, Text(now), FiveMinutes, false), IdCookie(ProfileIdFor(idCookie, freshId), config)]
                       + rest.cookies, rest.calls)
  {
  }

  lemma PrefixLastWrite(prefix: seq<Cookie>, rest: seq<Cookie>, name: string)
    requires |prefix| == 2 && prefix[0].name == TestCookie && prefix[1].name == ProfileIdCookie
    requires name != TestCookie
    ensures LastWrite(prefix + rest, name) ==
              if LastWrite(rest, name).Some? then LastWrite(rest, name)
              else if name == ProfileIdCookie then Some(prefix[1]) else None
  {
    LastWriteAppend(prefix, rest, name);
    var first := prefix[..1];
    assert first[..|first| - 1] == [];
    assert LastWrite(first, name) == None;
  }

  /** The cookies written after a successful POST. */
  lemma CreateStepLastWrite(config: Config, data: ApiData, profileId: string, name: string)
    ensures var i := if ServerId(data).Some? then [IdCookie(ServerId(data).value, config)] else [];
            var w := LastWrite(i + Snapshots(data, false, 1, config), name);
            && (name == ProfileIdCookie ==> w == (if ServerId(data).Some? then Some(IdCookie(ServerId(data).value, config)) else None))
            && (name != ProfileIdCookie ==> w == LastWrite(Snapshots(data, false, 1, config), name))
  {
    var i := if ServerId(data).Some? then [IdCookie(ServerId(data).value, config)] else [];
    LastWriteAppend(i, Snapshots(data, false, 1, config), name);
    SnapshotsLastWrite(data, false, 1, config, name);
  }

  /** GET not ok, POST ok: a non-empty server id overwrites the id cookie,
      and the profile cookie records a first session. */
  lemma CreateSucceeded(config: Config, api: Api, path: string, idCookie: Option<string>,
                        freshId: string, now: string)
    requires !Skipped(path) && config.apiKey != ""
    requires api.getProfile(ProfileIdFor(idCookie, freshId)).NotOk? && api.createProfile.Ok?
    ensures var data := api.createProfile.data;
            var r := Middleware(config, api, path, idCookie, freshId, now);
            && |r.calls| == 2 && r.calls[1].CreateProfile?
            && LastWrite(r.cookies, ProfileIdCookie) ==
                 Some(IdCookie(if ServerId(data).Some? then ServerId(data).value else ProfileIdFor(idCookie, freshId), config))
            && (LastWrite(r.cookies, ExperiencesCookie).Some? <==> data.experiences.Some?)
            && (data.experiences.Some? ==>
                  LastWrite(r.cookies, ExperiencesCookie).value.value == DecisionList(data.experiences.value) &&
                  LastWrite(r.cookies, ExperiencesCookie).value.maxAge == FiveMinutes)
            && (LastWrite(r.cookies, ProfileCookie).Some? <==> data.profile.Some?)
            && (data.profile.Some? ==>
                  LastWrite(r.cookies, ProfileCookie).value.value ==
                    ProfileSnapshot(data.profile.value.id, data.profile.value.audiences.GetOr([]), false, 1) &&
                  LastWrite(r.cookies, ProfileCookie).value.maxAge == FiveMinutes)
            && LastWrite(r.cookies, ErrorCookie).None?
  {
    var data := api.createProfile.data;
    var profileId := ProfileIdFor(idCookie, freshId);
    var i := if ServerId(data).Some? then [IdCookie(ServerId(data).value, config)] else [];
    var prefix := [Cookie(TestCookie, Text(now), FiveMinutes, false), IdCookie(profileId, config)];
    var rest := i + Snapshots(data, false, 1, config);
    ResponseShape(config, api, path, idCookie, freshId, now);
    CreateStepShape(config, api, profileId, IsNewVisitor(idCookie));
    PrefixLastWrite(prefix, rest, ProfileIdCookie);
    PrefixLastWrite(prefix, rest, ExperiencesCookie);
    PrefixLastWrite(prefix, rest, ProfileCookie);
    PrefixLastWrite(prefix, rest, ErrorCookie);
    CreateStepLastWrite(config, data, profileId, ProfileIdCookie);
    CreateStepLastWrite(config, data, profileId, ExperiencesCookie);
    CreateStepLastWrite(config, data, profileId, ProfileCookie);
    CreateStepLastWrite(config, data, profileId, ErrorCookie);
    SnapshotsLastWrite(data, false, 1, config, ExperiencesCookie);
    SnapshotsLastWrite(data, false, 1, config, ProfileCookie);
    SnapshotsLastWrite(data, false, 1, config, ErrorCookie);
  }

  lemma CreateStepShape(config: Config, api: Api, profileId: string, isNewVisitor: bool)
    requires config.apiKey != ""
    requires api.getProfile(profileId).NotOk? && api.createProfile.Ok?
    ensures var data := api.createProfile.data;
            var step := ApiStep(config, api, profileId, isNewVisitor);
            && step.cookies == (if ServerId(data).Some? then [IdCookie(ServerId(data).value, config)] else [])
                               + Snapshots(data, false, 1, config)
            && |step.calls| == 2 && step.calls[1].CreateProfile?
  {
  }

  /** GET and POST both not ok: neither snapshot cookie is written. */
  lemma BothFailed(config: Config, api: Api, path: string, idCookie: Option<string>,
                   freshId: string, now: string)
    requires !Skipped(path) && config.apiKey != ""
    requires api.getProfile(ProfileIdFor(idCookie, freshId)).NotOk? && api.createProfile.NotOk?
    ensures var r := Middleware(config, api, path, idCookie, freshId, now);
            && LastWrite(r.cookies, ExperiencesCookie).None?
            && LastWrite(r.cookies, ProfileCookie).None?
            && LastWrite(r.cookies, ErrorCookie).None?
            && LastWrite(r.cookies, ProfileIdCookie) == Some(IdCookie(ProfileIdFor(idCookie, freshId), config))
  {
    var prefix := [Cookie(TestCookie, Text(now), FiveMinutes, false), IdCookie(ProfileIdFor(idCookie, freshId), config)];
    ResponseShape(config, api, path, idCookie, freshId, now);
    PrefixLastWrite(prefix, [], ProfileIdCookie);
    PrefixLastWrite(prefix, [], ExperiencesCookie);
    PrefixLastWrite(prefix, [], ProfileCookie);
    PrefixLastWrite(prefix, [], ErrorCookie);
  }

  /** An exception in either call yields the error cookie carrying its
      message, keeps the id cookie, and writes no snapshot cookie; without an
      exception there is no error cookie. */
  lemma ErrorCookieIffThrew(config: Config, api: Api, path: string, idCookie: Option<string>,
                            freshId: string, now: string)
    requires !Skipped(path) && config.apiKey != ""
    ensures var get := api.getProfile(ProfileIdFor(idCookie, freshId));
            var threw := get.Threw? || (get.NotOk? && api.createProfile.Threw?);
            var r := Middleware(config, api, path, idCookie, freshId, now);
            && (LastWrite(r.cookies, ErrorCookie).Some? <==> threw)
            && (threw ==>
                  && LastWrite(r.cookies, ErrorCookie).value.value ==
                       Text(if get.Threw? then get.error else api.createProfile.error)
                  && LastWrite(r.cookies, ExperiencesCookie).None?
                  && LastWrite(r.cookies, ProfileCookie).None?
                  && LastWrite(r.cookies, ProfileIdCookie) == Some(IdCookie(ProfileIdFor(idCookie, freshId), config)))
  {
    var get := api.getProfile(ProfileIdFor(idCookie, freshId));
    if get.Ok? {
      GetSucceeded(config, api, path, idCookie, freshId, now);
    } else if get.NotOk? && api.createProfile.Ok? {
      CreateSucceeded(config, api, path, idCookie, freshId, now);
    } else if get.NotOk? && api.createProfile.NotOk? {
      BothFailed(config, api, path, idCookie, freshId, now);
    } else {
      var error := if get.Threw? then get.error else api.createProfile.error;
      var prefix := [Cookie(TestCookie, Text(now), FiveMinutes, false), IdCookie(ProfileIdFor(idCookie, freshId), config)];
      var rest := [Cookie(ErrorCookie, Text(error), FiveMinutes, false)];
      ResponseShape(config, api, path, idCookie, freshId, now);
      PrefixLastWrite(prefix, rest, ProfileIdCookie);
      PrefixLastWrite(prefix, rest, ExperiencesCookie);
      PrefixLastWrite(prefix, rest, ProfileCookie);
      PrefixLastWrite(prefix, rest, ErrorCookie);
      assert rest[..0] == [];
    }
  }
}

=== FILE: migrations.dfy ===
/** contentful/migrate-featured-news.ts: create the FeaturedNewsItem and
    FeaturedNews content types, tolerating "already exists", then allow
    'featuredNews' in the Page's `modules` link validation if it is not
    allowed yet. API calls are given by their outcomes. */
module FeaturedNewsMigration {
  import opened Wrappers
  import opened Schema
  import Content

  const ModulesFieldId := "modules"
  const FeaturedNewsId := "featuredNews"
  const FeaturedNewsItemId := "featuredNewsItem"

  /** The two content types the script creates. */
  const FeaturedNewsItemType := ContentType(FeaturedNewsItemId, "Featured News Item", "title", [
    Field("title", "Title", "Symbol", true, false, None, None, None, None),
    Field("image", "Image", "Link", true, false, Some("Asset"), None, None, None),
    Field("body", "Body", "Text", true, false, None, None, None, None),
    Field("url", "URL", "Symbol", false, false, None, None, None, None)])

  const FeaturedNewsType := ContentType(FeaturedNewsId, "Featured News", "title", [
    Field("title", "Title", "Symbol", true, false, None, None, None, None),
    Field("items", "Items", "Array", true, false, None,
          Some(Items("Link", Some("Entry"), Some([Validation(Some([FeaturedNewsItemId]), None)]))), None, None)])

  /** How creating and publishing one content type ended. */
  datatype CreateOutcome = Created | CreateFailed(errorName: string)

  /** A `Conflict` error means the type already exists and is tolerated. */
  predicate Tolerated(o: CreateOutcome) {
    o.Created? || o.errorName == "Conflict"
  }

  /** `validations.find(v => v.linkContentType)`, as the position found; any
      list, even an empty one, counts. */
  function FindLinkValidation(vs: seq<Validation>): (r: Option<nat>)
    ensures r.None? <==> forall i :: 0 <= i < |vs| ==> vs[i].linkContentType.None?
    ensures r.Some? ==> r.value < |vs| && vs[r.value].linkContentType.Some? &&
                        forall j :: 0 <= j < r.value ==> vs[j].linkContentType.None?
    decreases |vs|
  {
    if vs == [] then None
    else if vs[0].linkContentType.Some? then Some(0)
    else match FindLinkValidation(vs[1..])
      case None => None
      case Some(k) => Some(k + 1)
  }

  /** The `linkContentType` list the script inspects: that of the first link
      validation in the items of the first `modules` field. */
  function ModuleLinkTypes(ct: ContentType): Option<seq<string>> {
    match FindField(ct.fields, ModulesFieldId)
    case None => None
    case Some(k) =>
      var f := ct.fields[k];
      if f.items.None? || f.items.value.validations.None? then None
      else match FindLinkValidation(f.items.value.validations.value)
        case None => None
        case Some(j) => f.items.value.validations.value[j].linkContentType
  }

  /** The outcome of the Page edit. The last two differ only in what is
      logged: nothing when the `modules` field or its item validations are
      missing, a warning when no validation carries a link-type list. */
  datatype PageEdit =
    | Updated(contentType: ContentType)
    | AlreadyIncluded
    | NoLinkValidation
    | NoModulesValidations

  /** The item validations of the first `modules` field, when it has them. */
  function ModulesValidations(ct: ContentType): (r: Option<seq<Validation>>)
    ensures r.Some? ==> exists k :: 0 <= k < |ct.fields| && ct.fields[k].id == ModulesFieldId &&
                                    ct.fields[k].items.Some? && ct.fields[k].items.value.validations == r
    ensures (forall k :: 0 <= k < |ct.fields| ==> ct.fields[k].id != ModulesFieldId) ==> r.None?
  {
    match FindField(ct.fields, ModulesFieldId)
    case None => None
    case Some(k) =>
      if ct.fields[k].items.None? then None else ct.fields[k].items.value.validations
  }

  /** Every field whose id is `id` becomes `f`; the others are kept, in order. */
  function ReplaceById(fields: seq<Field>, id: string, f: Field): (r: seq<Field>)
    ensures |r| == |fields|
    ensures forall i :: 0 <= i < |fields| ==> r[i] == (if fields[i].id == id then f else fields[i])
  {
    seq(|fields|, i requires 0 <= i < |fields| => if fields[i].id == id then f else fields[i])
  }

  /** `after` is `before` with only the first link validation's
      `linkContentType` list extended by 'featuredNews': its id, name, type,
      flags, item type, link type and every other validation stay, and so do
      that validation's allowed values. */
  predicate OnlyLinkListExtended(before: Field, after: Field) {
    && before.items.Some? && before.items.value.validations.Some?
    && after.items.Some? && after.items.value.validations.Some?
    && after.(items := None) == before.(items := None)
    && after.items.value.itemType == before.items.value.itemType
    && after.items.value.linkType == before.items.value.linkType
    && var vs := before.items.value.validations.value;
       var vs' := after.items.value.validations.value;
       && FindLinkValidation(vs).Some?
       && var j := FindLinkValidation(vs).value;
          && |vs'| == |vs|
          && (forall i :: 0 <= i < |vs| && i != j ==> vs'[i] == vs[i])
          && vs'[j].allowedValues == vs[j].allowedValues
          && vs'[j].linkContentType == Some(vs[j].linkContentType.value + [FeaturedNewsId])
  }

  /** The edit of the Page content type. */
  function AddFeaturedNews(ct: ContentType): (r: PageEdit)
    ensures r.Updated? <==> ModuleLinkTypes(ct).Some? && FeaturedNewsId !in ModuleLinkTypes(ct).value
    ensures r.AlreadyIncluded? <==> ModuleLinkTypes(ct).Some? && FeaturedNewsId in ModuleLinkTypes(ct).value
    ensures r.NoModulesValidations? <==> ModulesValidations(ct).None?
    ensures r.NoLinkValidation? <==> ModulesValidations(ct).Some? && FindLinkValidation(ModulesValidations(ct).value).None?
    ensures r.Updated? ==>
              && r.contentType.id == ct.id && r.contentType.name == ct.name
              && r.contentType.displayField == ct.displayField
              && |r.contentType.fields| == |ct.fields|
              && (forall i :: 0 <= i < |ct.fields| ==> r.contentType.fields[i].id == ct.fields[i].id)
              && (forall i :: 0 <= i < |ct.fields| && ct.fields[i].id != ModulesFieldId ==>
                    r.contentType.fields[i] == ct.fields[i])
              && ModuleLinkTypes(r.contentType) == Some(ModuleLinkTypes(ct).value + [FeaturedNewsId])
    ensures r.Updated? ==>
              && FindField(ct.fields, ModulesFieldId).Some?
              && forall i :: 0 <= i < |ct.fields| && ct.fields[i].id == ModulesFieldId ==>
                   OnlyLinkListExtended(ct.fields[FindField(ct.fields, ModulesFieldId).value], r.contentType.fields[i])
  {
    match FindField(ct.fields, ModulesFieldId)
    case None => NoModulesValidations
    case Some(k) =>
      var f := ct.fields[k];
      if f.items.None? || f.items.value.validations.None? then NoModulesValidations
      else
        var vs := f.items.value.validations.value;
        match FindLinkValidation(vs)
        case None => NoLinkValidation
        case Some(j) =>
          var types := vs[j].linkContentType.value;
          if FeaturedNewsId in types then AlreadyIncluded
          else
            var vs' := vs[j := vs[j].(linkContentType := Some(types + [FeaturedNewsId]))];
            var f' := f.(items := Some(f.items.value.(validations := Some(vs'))));
            var fields' := ReplaceById(ct.fields, ModulesFieldId, f');
            var ct' := ct.(fields := fields');
            FindFieldByIds(ct.fields, fields', ModulesFieldId);
            assert FindLinkValidation(vs') == Some(j) by { LinkValidationKept(vs, j, vs'); }
            Updated(ct')
  }

  /** Replacing the list of the found link validation keeps it the first one. */
  lemma LinkValidationKept(vs: seq<Validation>, j: nat, vs': seq<Validation>)
    requires FindLinkValidation(vs) == Some(j)
    requires |vs'| == |vs| && vs'[j].linkContentType.Some?
    requires forall i :: 0 <= i < |vs| && i != j ==> vs'[i] == vs[i]
    ensures FindLinkValidation(vs') == Some(j)
  {
  }

  /** The content type after the edit: the updated one, or the original. */
  function Migrated(ct: ContentType): ContentType {
    match AddFeaturedNews(ct)
    case Updated(ct') => ct'
    case _ => ct
  }

  /** Running the edit twice gives what running it once gives. */
  lemma AddFeaturedNewsIdempotent(ct: ContentType)
    ensures Migrated(Migrated(ct)) == Migrated(ct)
    ensures AddFeaturedNews(Migrated(ct)).Updated? ==> false
    ensures ModuleLinkTypes(ct).Some? ==> AddFeaturedNews(Migrated(ct)).AlreadyIncluded?
  {
    if ModuleLinkTypes(ct).Some? {
      AddedIdIsFeaturedNews(ct);
    }
    if AddFeaturedNews(ct).Updated? {
      var types := ModuleLinkTypes(ct).value;
      assert (types + [FeaturedNewsId])[|types|] == FeaturedNewsId;
    }
  }

  /** The types the script creates are the content model's: FeaturedNews
      is created under the id the renderer maps to FeaturedNews, its `items`
      link only to the item type, and both display their title. */
  lemma CreatedTypesMatchContentModel()
    ensures Content.KindOfTag(FeaturedNewsType.id) == Some(Content.FeaturedNewsKind)
    ensures Content.KindOfTag(FeaturedNewsItemType.id).None?
    ensures FindField(FeaturedNewsType.fields, "items") == Some(1)
    ensures FeaturedNewsType.fields[1].items.Some? &&
            FeaturedNewsType.fields[1].items.value.validations == Some([Validation(Some([FeaturedNewsItemType.id]), None)])
    ensures FindField(FeaturedNewsType.fields, FeaturedNewsType.displayField) == Some(0)
    ensures FindField(FeaturedNewsItemType.fields, FeaturedNewsItemType.displayField) == Some(0)
  {
  }

  /** After the edit the Page accepts FeaturedNews modules by the id the
      content model maps to FeaturedNews. */
  lemma AddedIdIsFeaturedNews(ct: ContentType)
    requires ModuleLinkTypes(ct).Some?
    ensures ModuleLinkTypes(Migrated(ct)).Some? && FeaturedNewsId in ModuleLinkTypes(Migrated(ct)).value
    ensures Content.KindOfTag(FeaturedNewsId) == Some(Content.FeaturedNewsKind)
  {
    if AddFeaturedNews(ct).Updated? {
      var types := ModuleLinkTypes(ct).value;
      assert (types + [FeaturedNewsId])[|types|] == FeaturedNewsId;
    }
  }

  datatype PageStep =
    | PageUpdated(contentType: ContentType)
    | PageUnchanged(edit: PageEdit)
    | PageUpdateFailed
    | PageFetchFailed

  datatype RunResult = Completed(page: PageStep) | Aborted(errorName: string)

  /** `runMigration`. `page` is the fetched Page content type (None: the
      fetch threw); `updateOk` says whether update and publish succeeded. */
  function RunMigration(item: CreateOutcome, news: CreateOutcome, page: Option<ContentType>, updateOk: bool): (r: RunResult)
    ensures r.Aborted? <==> !Tolerated(item) || !Tolerated(news)
    ensures r.Aborted? ==> r.errorName == (if !Tolerated(item) then item.errorName else news.errorName)
    ensures r.Completed? && r.page.PageUpdated? ==>
              page.Some? && updateOk && r.page.contentType == Migrated(page.value) &&
              AddFeaturedNews(page.value).Updated?
    ensures r.Completed? && page.Some? && !AddFeaturedNews(page.value).Updated? ==> r.page == PageUnchanged(AddFeaturedNews(page.value))
    ensures r.Completed? && page.Some? && AddFeaturedNews(page.value).Updated? ==>
              (r.page.PageUpdated? <==> updateOk) && (!updateOk ==> r.page == PageUpdateFailed)
    ensures r.Completed? && page.None? ==> r.page == PageFetchFailed
  {
    if !Tolerated(item) then Aborted(item.errorName)
    else if !Tolerated(news) then Aborted(news.errorName)
    else match page
      case None => Completed(PageFetchFailed)
      case Some(ct) =>
        match AddFeaturedNews(ct)
        case Updated(ct') => if updateOk then Completed(PageUpdated(ct')) else Completed(PageUpdateFailed)
        case edit => Completed(PageUnchanged(edit))
  }
}

/** contentful/migrate-hero-image-location.ts: add the optional
    `imageLocation` field to the Hero content type unless it is there. */
module HeroImageLocationMigration {
  import opened Wrappers
  import opened Schema
  import Content

  const ImageLocationFieldId := "imageLocation"
  const AllowedLocations := ["Right side", "Right overlay"]
  const DefaultLocation := "Right side"

  /** The field the script appends. */
  const ImageLocationField := Field(ImageLocationFieldId, "Image Location", "Symbol", false, false, None, None,
                                    Some([Validation(None, Some(AllowedLocations))]),
                                    Some(map["en-US" := DefaultLocation]))

  /** The field list after the edit: unchanged when a field with that id
      exists, otherwise the new field appended at the end. */
  function AddImageLocation(fields: seq<Field>): (r: seq<Field>)
    ensures |r| == |fields| || |r| == |fields| + 1
    ensures r[..|fields|] == fields
    ensures |r| == |fields| + 1 <==> forall i :: 0 <= i < |fields| ==> fields[i].id != ImageLocationFieldId
    ensures |r| == |fields| + 1 ==> r[|fields|] == ImageLocationField
    ensures exists i :: 0 <= i < |r| && r[i].id == ImageLocationFieldId
  {
    match FindField(fields, ImageLocationFieldId)
    case Some(_) => fields
    case None => fields + [ImageLocationField]
  }

  lemma AddImageLocationIdempotent(fields: seq<Field>)
    ensures AddImageLocation(AddImageLocation(fields)) == AddImageLocation(fields)
  {
    var once := AddImageLocation(fields);
    var i :| 0 <= i < |once| && once[i].id == ImageLocationFieldId;
    assert FindField(once, ImageLocationFieldId).Some?;
  }

  /** The new field is optional, of type Symbol, and its allowed values are
      exactly the labels of the Hero's `imageLocation` type, the default
      being one of them. */
  lemma ImageLocationFieldMatchesContentModel()
    ensures ImageLocationField.fieldType == "Symbol" && !ImageLocationField.required
    ensures AllowedLocations == [Content.ImageLocationLabel(Content.RightSide), Content.ImageLocationLabel(Content.RightOverlay)]
    ensures DefaultLocation in AllowedLocations
    ensures forall s :: s in AllowedLocations ==> Content.ParseImageLocation(s).Some?
  {
  }

  datatype RunResult = AlreadyPresent | Added(contentType: ContentType) | Failed

  /** `runMigration`. `hero` is the fetched Hero content type (None: the
      fetch threw); `updateOk` says whether update and publish succeeded.
      Errors are rethrown, so they fail the run. */
  function RunMigration(hero: Option<ContentType>, updateOk: bool): (r: RunResult)
    ensures r.Failed? <==> hero.None? || (FindField(hero.value.fields, ImageLocationFieldId).None? && !updateOk)
    ensures r.AlreadyPresent? <==> hero.Some? && exists i :: 0 <= i < |hero.value.fields| && hero.value.fields[i].id == ImageLocationFieldId
    ensures r.Added? ==> r.contentType == hero.value.(fields := hero.value.fields + [ImageLocationField])
  {
    match hero
    case None => Failed
    case Some(ct) =>
      if FindField(ct.fields, ImageLocationFieldId).Some? then AlreadyPresent
      else if updateOk then Added(ct.(fields := AddImageLocation(ct.fields)))
      else Failed
  }
}

=== FILE: ninetailed.dfy ===
/** lib/ninetailed.ts: the library's own `hasExperiences` predicate. */
module NinetailedLib {
  import opened Content
  import ModuleRendering

  /** `Boolean(entry.fields && 'nt_experiences' in entry.fields &&
      entry.fields.nt_experiences?.length > 0)`: an entry without fields, an
      absent, undefined or null value, and an empty list all give false. */
  predicate HasExperiences(e: Ref<Module>): (b: bool)
    // an entry without fields never has experiences
    ensures b ==> e.Resolved?
    // the `in` test and optional chaining make absent, undefined and null alike
    ensures e.Resolved? && (e.entry.fields.experiences.Absent? || e.entry.fields.experiences.Null?) ==> !b
    // on an array it is the renderer's predicate; on anything else, its `length`
    ensures e.Resolved? && !e.entry.fields.experiences.NonArray? ==> (b <==> ModuleRendering.HasExperiences(e.entry))
    ensures e.Resolved? && e.entry.fields.experiences.NonArray? ==> (b <==> e.entry.fields.experiences.positiveLength)
  {
    match e
    case Link(_) => false
    case Resolved(entry) =>
      match entry.fields.experiences
      case Absent => false
      case Null => false
      case NonArray(positiveLength) => positiveLength
      case List(items) => |items| > 0
  }

  /** Wherever `nt_experiences` is not a non-array value, this predicate and
      ModuleRenderer's agree; they differ only on a non-array with a positive
      `length`, such as a string. */
  lemma AgreesWithRenderer(m: Entry<Module>)
    ensures !m.fields.experiences.NonArray? ==> (HasExperiences(Resolved(m)) <==> ModuleRendering.HasExperiences(m))
    ensures m.fields.experiences.NonArray? ==>
              (HasExperiences(Resolved(m)) <==> m.fields.experiences.positiveLength) && !ModuleRendering.HasExperiences(m)
  {
  }

  /** A list value makes the predicate true exactly when it is non-empty. */
  lemma ListCases(m: Entry<Module>, xs: seq<Ref<Experience>>)
    requires m.fields.experiences == List(xs)
    ensures HasExperiences(Resolved(m)) <==> xs != []
  {
  }
}

=== FILE: personalization.dfy ===
/** components/PersonalizedModule.tsx: audience-based variant selection.
    The profile comes from the SDK's `useProfile` hook and is a parameter;
    the selection is a first-match search over the module's experiences in
    list order. */
module Personalization {
  import opened Wrappers
  import opened Content
  import ModuleRendering

  /** `componentMap`, the component's own copy of the dispatch table. */
  const ComponentMap: map<string, ModuleRendering.Component> := map[
    HeroTag := ModuleRendering.HeroComponent,
    InfoblockTag := ModuleRendering.InfoblockComponent,
    ImageTriplexTag := ModuleRendering.ImageTriplexComponent,
    FeaturedNewsTag := ModuleRendering.FeaturedNewsComponent,
    FeaturedNewsSecondTag := ModuleRendering.FeaturedNewsComponent]

  /** `propNameMap`, the component's own copy. */
  const PropNameMap: map<string, string> := map[
    HeroTag := "hero",
    InfoblockTag := "infoblock",
    ImageTriplexTag := "imageTriplex",
    FeaturedNewsTag := "featuredNews",
    FeaturedNewsSecondTag := "featuredNews"]

  /** Both copies of the dispatch tables are the same tables. */
  lemma TablesMatchRenderer()
    ensures ComponentMap == ModuleRendering.ContentTypeMap
    ensures PropNameMap == ModuleRendering.PropNameMap
  {
  }

  /** The visitor profile as far as selection reads it. */
  datatype Profile = Profile(audiences: Option<seq<string>>)

  /** What `useProfile` reports. */
  datatype ProfileState = ProfileState(loading: bool, status: string, profile: Option<Profile>)

  /** A profile selection may read: loaded, status 'success', present. */
  predicate Ready(state: ProfileState) {
    !state.loading && state.status == "success" && state.profile.Some?
  }

  /** `profile.audiences || []`. */
  function AudiencesOf(state: ProfileState): seq<string>
    requires state.profile.Some?
  {
    state.profile.value.audiences.GetOr([])
  }

  /** The audience id of an experience: `nt_audience_id` when it is
      non-empty, else the audience's sys.id; "" when there is no audience. */
  function AudienceIdOf(audience: Option<Ref<Audience>>): (id: string)
    ensures audience.None? ==> id == ""
    ensures audience.Some? ==> id == audience.value.Id() ||
                               (audience.value.Resolved? && id == audience.value.entry.fields.audienceId)
    ensures audience.Some? && audience.value.Resolved? && audience.value.entry.fields.audienceId != "" ==>
              id == audience.value.entry.fields.audienceId
    ensures audience.Some? && audience.value.Resolved? && audience.value.entry.fields.audienceId == "" ==>
              id == audience.value.entry.sys.id
  {
    match audience
    case None => ""
    case Some(Link(id)) => id
    case Some(Resolved(e)) => if e.fields.audienceId != "" then e.fields.audienceId else e.sys.id
  }

  /** An experience selects its first variant for these audiences: it has
      fields, a non-empty audience id among the audiences, at least one
      variant, and that first variant has fields. */
  predicate Matches(x: Ref<Experience>, audiences: seq<string>) {
    && x.Resolved?
    && AudienceIdOf(x.entry.fields.audience) != ""
    && AudienceIdOf(x.entry.fields.audience) in audiences
    && x.entry.fields.variants.Some?
    && |x.entry.fields.variants.value| > 0
    && x.entry.fields.variants.value[0].Resolved?
  }

  /** The variant a matching experience contributes: `{sys, fields}` of
      variant 0. */
  function ChosenVariant(x: Ref<Experience>, audiences: seq<string>): Entry<Module>
    requires Matches(x, audiences)
  {
    x.entry.fields.variants.value[0].entry
  }

  /** `i` is the first matching position of `xs`. */
  predicate FirstMatchAt(xs: seq<Ref<Experience>>, audiences: seq<string>, i: int) {
    && 0 <= i < |xs|
    && Matches(xs[i], audiences)
    && forall j :: 0 <= j < i ==> !Matches(xs[j], audiences)
  }

  /** The `for ... of experiences` loop with its `continue`s and `break`. */
  method FindVariant(xs: seq<Ref<Experience>>, audiences: seq<string>) returns (found: Option<Entry<Module>>)
    ensures found.None? <==> forall i :: 0 <= i < |xs| ==> !Matches(xs[i], audiences)
    ensures found.Some? ==>
              exists i :: FirstMatchAt(xs, audiences, i) && found.value == ChosenVariant(xs[i], audiences)
  {
    var i := 0;
    while i < |xs|
      invariant 0 <= i <= |xs|
      invariant forall j :: 0 <= j < i ==> !Matches(xs[j], audiences)
    {
      var x := xs[i];
      if x.Resolved? {
        var id := AudienceIdOf(x.entry.fields.audience);
        if id != "" {
          var variants := x.entry.fields.variants;
          if id in audiences && variants.Some? && |variants.value| > 0 {
            var variant := variants.value[0];
            if variant.Resolved? {
              assert FirstMatchAt(xs, audiences, i);
              return Some(variant.entry);
            }
          }
        }
      }
      i := i + 1;
    }
    return None;
  }

  /** Two first-match positions are the same position. */
  lemma FirstMatchUnique(xs: seq<Ref<Experience>>, audiences: seq<string>, i: int, k: int)
    requires FirstMatchAt(xs, audiences, i) && FirstMatchAt(xs, audiences, k)
    ensures i == k
  {
  }

  /** `PersonalizedModule`: the component for the module's own tag, given
      either the baseline or the first matching experience's first variant.
      The component does not guard unknown tags, so a known tag is required. */
  method PersonalizedModule(state: ProfileState, m: Entry<Module>)
    returns (component: ModuleRendering.Component, propName: string, props: Entry<Module>)
    requires m.sys.contentTypeId.Some? && m.sys.contentTypeId.value in ComponentMap
    ensures component == ComponentMap[m.sys.contentTypeId.value]
    ensures propName == PropNameMap[m.sys.contentTypeId.value]
    ensures !Ready(state) ==> props == m
    ensures !m.fields.experiences.List? ==> props == m
    ensures Ready(state) && m.fields.experiences.List? &&
            (forall i :: 0 <= i < |m.fields.experiences.items| ==> !Matches(m.fields.experiences.items[i], AudiencesOf(state)))
            ==> props == m
    ensures Ready(state) && m.fields.experiences.List? ==>
              forall i :: FirstMatchAt(m.fields.experiences.items, AudiencesOf(state), i) ==>
                props == ChosenVariant(m.fields.experiences.items[i], AudiencesOf(state))
    ensures props == m ||
            (Ready(state) && m.fields.experiences.List? &&
             exists i :: FirstMatchAt(m.fields.experiences.items, AudiencesOf(state), i) &&
                         props == ChosenVariant(m.fields.experiences.items[i], AudiencesOf(state)))
  {
    var tag := m.sys.contentTypeId.value;
    component := ComponentMap[tag];
    propName := PropNameMap[tag];
    props := m;
    if state.loading || state.status != "success" || state.profile.None? {
      return;
    }
    if !m.fields.experiences.List? || |m.fields.experiences.items| == 0 {
      return;
    }
    var found := FindVariant(m.fields.experiences.items, AudiencesOf(state));
    if found.Some? {
      props := found.value;
      forall i | FirstMatchAt(m.fields.experiences.items, AudiencesOf(state), i)
        ensures props == ChosenVariant(m.fields.experiences.items[i], AudiencesOf(state))
      {
        var k :| FirstMatchAt(m.fields.experiences.items, AudiencesOf(state), k) &&
                 found.value == ChosenVariant(m.fields.experiences.items[k], AudiencesOf(state));
        FirstMatchUnique(m.fields.experiences.items, AudiencesOf(state), i, k);
      }
    }
  }
}

=== FILE: rendering.dfy ===
/** components/ModuleRenderer.tsx: dispatch from content-type id to
    component, the server-side baseline rule, and the hand-over of parsed
    experiences to the personalization SDK. The SDK's `isExperienceEntry`
    and `mapExperience` are parameters. */
module ModuleRendering {
  import opened Wrappers
  import opened Content

  /** The presentational components a module can be rendered with. */
  datatype Component = HeroComponent | InfoblockComponent | ImageTriplexComponent | FeaturedNewsComponent

  /** `ContentTypeMap`. */
  const ContentTypeMap: map<string, Component> := map[
    HeroTag := HeroComponent,
    InfoblockTag := InfoblockComponent,
    ImageTriplexTag := ImageTriplexComponent,
    FeaturedNewsTag := FeaturedNewsComponent,
    FeaturedNewsSecondTag := FeaturedNewsComponent]

  /** `propNameMap`: the prop under which each component receives its entry. */
  const PropNameMap: map<string, string> := map[
    HeroTag := "hero",
    InfoblockTag := "infoblock",
    ImageTriplexTag := "imageTriplex",
    FeaturedNewsTag := "featuredNews",
    FeaturedNewsSecondTag := "featuredNews"]

  function ComponentOf(k: ModuleKind): Component {
    match k
    case HeroKind => HeroComponent
    case InfoblockKind => InfoblockComponent
    case ImageTriplexKind => ImageTriplexComponent
    case FeaturedNewsKind => FeaturedNewsComponent
  }

  function PropNameOf(k: ModuleKind): string {
    match k
    case HeroKind => "hero"
    case InfoblockKind => "infoblock"
    case ImageTriplexKind => "imageTriplex"
    case FeaturedNewsKind => "featuredNews"
  }

  /** The two tables have the same keys, which are exactly the module tags
      of the content model, and both follow the tag's kind; in particular
      the second FeaturedNews id renders FeaturedNews under `featuredNews`. */
  lemma TablesFollowKinds(tag: string)
    ensures ContentTypeMap.Keys == PropNameMap.Keys
    ensures tag in ContentTypeMap <==> KindOfTag(tag).Some?
    ensures tag in ContentTypeMap ==>
              && ContentTypeMap[tag] == ComponentOf(KindOfTag(tag).value)
              && PropNameMap[tag] == PropNameOf(KindOfTag(tag).value)
  {
  }

  /** What a renderer returns: nothing (`null`), a component with the entry
      under its prop name, or the SDK's `Experience` element. */
  datatype View<X> =
    | Nothing
    | Element(component: Component, propName: string, props: Entry<Module>)
    | Personalized(key: string, id: string, baseline: Entry<Module>, experiences: seq<X>)

  /** The tag the renderer dispatches on, when it is a known one. */
  predicate KnownTag(m: Entry<Module>) {
    m.sys.contentTypeId.Some? && m.sys.contentTypeId.value in ContentTypeMap
  }

  /** `hasExperiences`: `nt_experiences` is defined, an array, and non-empty.
      `Array.isArray` rejects a string or any other array-like value even
      when its `length` is positive, and `null` is an object but no array. */
  predicate HasExperiences(m: Entry<Module>): (b: bool)
    ensures m.fields.experiences.Absent? || m.fields.experiences.Null? || m.fields.experiences.NonArray? ==> !b
    ensures b <==> m.fields.experiences.List? && m.fields.experiences.items != []
  {
    m.fields.experiences.List? && |m.fields.experiences.items| > 0
  }

  /** `Array.prototype.filter`. */
  function Filter<T>(p: T -> bool, xs: seq<T>): (r: seq<T>)
    ensures |r| <= |xs|
    ensures forall y :: y in r ==> y in xs && p(y)
    ensures forall x :: x in xs && p(x) ==> x in r
    ensures Subsequence(r, xs)
    decreases |xs|
  {
    if xs == [] then
      assert Picks([], [], xs);
      []
    else
      var rest := Filter(p, xs[1..]);
      assert xs == [xs[0]] + xs[1..];
      if p(xs[0]) then
        SubsequenceCons(xs[0], rest, xs[1..]);
        [xs[0]] + rest
      else
        SubsequenceSkip(xs[0], rest, xs[1..]);
        rest
  }

  /** The filter keeps every copy of an accepted value and no copy of a
      rejected one. */
  lemma {:induction false} FilterKeepsEveryCopy<T>(p: T -> bool, xs: seq<T>)
    ensures forall x :: p(x) ==> multiset(Filter(p, xs))[x] == multiset(xs)[x]
    ensures forall x :: !p(x) ==> multiset(Filter(p, xs))[x] == 0
    decreases |xs|
  {
    if xs != [] {
      FilterKeepsEveryCopy(p, xs[1..]);
      assert xs == [xs[0]] + xs[1..];
      assert multiset(xs) == multiset([xs[0]]) + multiset(xs[1..]);
      if p(xs[0]) {
        assert multiset(Filter(p, xs)) == multiset([xs[0]]) + multiset(Filter(p, xs[1..]));
      }
    }
  }

  /** A filter that accepts every element returns the list unchanged. */
  lemma {:induction false} FilterAll<T>(p: T -> bool, xs: seq<T>)
    requires forall x :: x in xs ==> p(x)
    ensures Filter(p, xs) == xs
    decreases |xs|
  {
    if xs != [] {
      assert xs[0] in xs;
      assert forall x :: x in xs[1..] ==> x in xs;
      FilterAll(p, xs[1..]);
    }
  }

  /** `r` is `xs` with some elements left out and the rest in their order:
      an increasing choice of positions. */
  ghost predicate Subsequence<T>(r: seq<T>, xs: seq<T>) {
    exists pos: seq<nat> :: Picks(pos, r, xs)
  }

  /** `pos` picks the elements of `r` out of `xs` at strictly increasing
      positions. */
  ghost predicate Picks<T>(pos: seq<nat>, r: seq<T>, xs: seq<T>) {
    && |pos| == |r|
    && (forall i :: 0 <= i < |pos| ==> pos[i] < |xs| && r[i] == xs[pos[i]])
    && (forall i, j :: 0 <= i < j < |pos| ==> pos[i] < pos[j])
  }

  function Shift(pos: seq<nat>): (q: seq<nat>)
    ensures |q| == |pos|
    ensures forall i :: 0 <= i < |pos| ==> q[i] == pos[i] + 1
  {
    seq(|pos|, i requires 0 <= i < |pos| => pos[i] + 1)
  }

  lemma SubsequenceCons<T>(x: T, r: seq<T>, xs: seq<T>)
    requires Subsequence(r, xs)
    ensures Subsequence([x] + r, [x] + xs)
  {
    var pos :| Picks(pos, r, xs);
    var q := [0] + Shift(pos);
    assert Picks(q, [x] + r, [x] + xs);
  }

  lemma SubsequenceSkip<T>(x: T, r: seq<T>, xs: seq<T>)
    requires Subsequence(r, xs)
    ensures Subsequence(r, [x] + xs)
  {
    var pos :| Picks(pos, r, xs);
    assert Picks(Shift(pos), r, [x] + xs);
  }

  /** Filtering a concatenation filters each part in turn: the filter keeps
      the relative order of the elements it keeps. */
  lemma {:induction false} FilterAppend<T>(p: T -> bool, a: seq<T>, b: seq<T>)
    ensures Filter(p, a + b) == Filter(p, a) + Filter(p, b)
    decreases |a|
  {
    if a == [] {
      assert a + b == b;
    } else {
      assert (a + b)[1..] == a[1..] + b;
      FilterAppend(p, a[1..], b);
    }
  }

  /** `Array.prototype.map`. */
  function Map<T, X>(f: T -> X, xs: seq<T>): seq<X> {
    seq(|xs|, i requires 0 <= i < |xs| => f(xs[i]))
  }

  /** `parseExperiences`: nothing unless `hasExperiences`, otherwise the
      SDK-accepted experiences, mapped, in their original order. */
  function ParseExperiences<X>(isEntry: Ref<Experience> -> bool, mapExp: Ref<Experience> -> X,
                               m: Entry<Module>): (r: seq<X>)
    ensures !HasExperiences(m) ==> r == []
    ensures HasExperiences(m) ==>
              var kept := Filter(isEntry, m.fields.experiences.items);
              && |r| == |kept|
              && forall i :: 0 <= i < |r| ==> r[i] == mapExp(kept[i])
    ensures HasExperiences(m) ==> |r| <= |m.fields.experiences.items|
    ensures HasExperiences(m) ==>
              (r == [] <==> forall x :: x in m.fields.experiences.items ==> !isEntry(x))
    ensures forall i :: 0 <= i < |r| ==>
              exists x :: x in m.fields.experiences.items && isEntry(x) && r[i] == mapExp(x)
  {
    if !HasExperiences(m) then []
    else
      var kept := Filter(isEntry, m.fields.experiences.items);
      assert forall i :: 0 <= i < |kept| ==> kept[i] in kept;
      assert kept != [] ==> kept[0] in kept;
      assert |Map(mapExp, kept)| == |kept|;
      Map(mapExp, kept)
  }

  /** `ComponentRenderer`: the component the SDK renders an entry with;
      null for an unknown content type. */
  function ComponentRenderer<X>(props: Entry<Module>): (v: View<X>)
    ensures v.Nothing? <==> !KnownTag(props)
    ensures !v.Nothing? ==> v.Element? && v.props == props
    ensures !v.Nothing? ==>
              && KindOfTag(props.sys.contentTypeId.value).Some?
              && v.component == ComponentOf(KindOfTag(props.sys.contentTypeId.value).value)
              && v.propName == PropNameOf(KindOfTag(props.sys.contentTypeId.value).value)
  {
    if !KnownTag(props) then Nothing
    else
      var tag := props.sys.contentTypeId.value;
      TablesFollowKinds(tag);
      Element(ContentTypeMap[tag], PropNameMap[tag], props)
  }

  /** `ModuleRenderer`: nothing for a missing or unknown tag; the baseline
      before client mount and when no experience survives parsing; otherwise
      the SDK element keyed by tag and id. */
  function RenderModule<X>(isClient: bool, isEntry: Ref<Experience> -> bool, mapExp: Ref<Experience> -> X,
                           m: Entry<Module>): (v: View<X>)
    ensures v.Nothing? <==> !KnownTag(m)
    ensures v.Element? ==> v.props == m && v == ComponentRenderer(m)
    ensures KnownTag(m) && !isClient ==> v.Element?
    ensures v.Personalized? <==> KnownTag(m) && isClient && ParseExperiences(isEntry, mapExp, m) != []
    ensures v.Personalized? ==>
              && v.key == m.sys.contentTypeId.value + "-" + m.sys.id
              && v.id == m.sys.id
              && v.baseline == m
              && v.experiences == ParseExperiences(isEntry, mapExp, m)
  {
    if !KnownTag(m) then Nothing
    else
      var tag := m.sys.contentTypeId.value;
      var baseline := Element(ContentTypeMap[tag], PropNameMap[tag], m);
      if !isClient then baseline
      else
        var parsed := ParseExperiences(isEntry, mapExp, m);
        if |parsed| == 0 then baseline
        else Personalized(tag + "-" + m.sys.id, m.sys.id, m, parsed)
  }

  /** `ModuleRenderer` given an element of a page's module list: a module
      that arrived as a bare link has no content type and renders nothing. */
  function RenderRef<X>(isClient: bool, isEntry: Ref<Experience> -> bool, mapExp: Ref<Experience> -> X,
                        m: Ref<Module>): (v: View<X>)
    ensures m.Link? ==> v.Nothing?
    ensures m.Resolved? ==> v == RenderModule(isClient, isEntry, mapExp, m.entry)
  {
    match m
    case Link(_) => Nothing
    case Resolved(e) => RenderModule(isClient, isEntry, mapExp, e)
  }

  /** When the SDK accepts every experience of a module that has some, the
      parsed list is all of them, mapped, in their order; without
      experiences the client renders what the server did. */
  lemma ParseAllAccepted<X>(isEntry: Ref<Experience> -> bool, mapExp: Ref<Experience> -> X, m: Entry<Module>)
    requires HasExperiences(m)
    requires forall x :: x in m.fields.experiences.items ==> isEntry(x)
    ensures ParseExperiences(isEntry, mapExp, m) == Map(mapExp, m.fields.experiences.items)
  {
    FilterAll(isEntry, m.fields.experiences.items);
  }

  /** Before client mount a well-typed module renders its baseline with the
      component of its own kind. */
  lemma ServerRendersBaseline<X>(isEntry: Ref<Experience> -> bool, mapExp: Ref<Experience> -> X, m: Entry<Module>)
    requires WellTyped(m)
    ensures RenderModule(false, isEntry, mapExp, m) == Element(ComponentOf(KindOf(m.fields)), PropNameOf(KindOf(m.fields)), m)
  {
    TablesFollowKinds(m.sys.contentTypeId.value);
    TagDeterminesKind(m.sys.contentTypeId.value, KindOf(m.fields));
  }

  /** Server output and the client's output agree whenever no experience of
      the module is accepted by the SDK, in particular when it has none. */
  lemma HydrationParity<X>(isEntry: Ref<Experience> -> bool, mapExp: Ref<Experience> -> X, m: Entry<Module>)
    requires !HasExperiences(m) || forall x :: x in m.fields.experiences.items ==> !isEntry(x)
    ensures RenderModule(true, isEntry, mapExp, m) == RenderModule(false, isEntry, mapExp, m)
  {
  }
}

=== FILE: resolution.dfy ===
/** Reference resolution of pages/index.tsx (`resolveLink`,
    `resolveExperiences`): link stubs inside a module's experiences, and the
    audience and variants of each experience, are fetched by id. The CMS is an
    oracle, `Promise.all` is a sequential map, and every fetch issued is
    recorded in order. */
module Resolution {
  import opened Wrappers
  import opened Content

  /** Include depth used when fetching an experience stub. */
  const ExperienceInclude: nat := 3
  /** `resolveLink`'s default depth, used for audiences and variants. */
  const DefaultInclude: nat := 2

  /** One fetch-by-id issued to the CMS. */
  datatype Request = Request(id: string, depth: nat)

  /** A value together with the fetches issued while computing it. */
  datatype Fetched<T> = Fetched(value: T, requests: seq<Request>)

  /** `getEntry(id, {include})`, one oracle per kind of slot; None stands
      for a rejected promise. */
  datatype Cms = Cms(
    experience: (string, nat) -> Option<Entry<Experience>>,
    audience: (string, nat) -> Option<Entry<Audience>>,
    variant: (string, nat) -> Option<Entry<Module>>)

  // ---------------------------------------------------------------------
  // What resolution leaves behind

  /** What `resolveLink` leaves in the place of `before`: the CMS's answer
      when `before` is a stub with an id and the fetch succeeds, `before`
      itself otherwise. */
  predicate RefFilled<T(==)>(fetch: (string, nat) -> Option<Entry<T>>, depth: nat, before: Ref<T>, after: Ref<T>) {
    if before.IsFetchableStub() && fetch(before.id, depth).Some? then after == Resolved(fetch(before.id, depth).value)
    else after == before
  }

  predicate VariantsFilled(cms: Cms, before: seq<Ref<Module>>, after: seq<Ref<Module>>) {
    |after| == |before| &&
    forall i :: 0 <= i < |before| ==> RefFilled(cms.variant, DefaultInclude, before[i], after[i])
  }

  /** Scalar fields are kept; the audience and each variant are filled from
      the CMS at depth 2. */
  predicate ExperienceFieldsFilled(cms: Cms, before: Experience, after: Experience) {
    && after.name == before.name
    && after.description == before.description
    && after.experienceType == before.experienceType
    && (before.audience.None? <==> after.audience.None?)
    && (before.audience.Some? ==> RefFilled(cms.audience, DefaultInclude, before.audience.value, after.audience.value))
    && (before.variants.None? <==> after.variants.None?)
    && (before.variants.Some? ==> VariantsFilled(cms, before.variants.value, after.variants.value))
  }

  /** `after` is the experience entry `before` with its nested references filled. */
  predicate EntryFilled(cms: Cms, before: Entry<Experience>, after: Ref<Experience>) {
    after.Resolved? && after.entry.sys == before.sys && ExperienceFieldsFilled(cms, before.fields, after.entry.fields)
  }

  /** An experience with fields, given or fetched at depth 3, gets its nested
      references filled; any other element stays as it is. */
  predicate ExperienceFilled(cms: Cms, before: Ref<Experience>, after: Ref<Experience>) {
    match before
    case Resolved(e) => EntryFilled(cms, e, after)
    case Link(id) =>
      if before.IsFetchableStub() && cms.experience(id, ExperienceInclude).Some? then
        EntryFilled(cms, cms.experience(id, ExperienceInclude).value, after)
      else after == before
  }

  /** Only `nt_experiences` may change, and only by filling its elements;
      its length and order are kept. */
  predicate ModuleFilled(cms: Cms, before: Entry<Module>, after: Entry<Module>) {
    && after.sys == before.sys
    && after.fields == before.fields.(experiences := after.fields.experiences)
    && match before.fields.experiences {
         case List(xs) =>
           && after.fields.experiences.List?
           && |after.fields.experiences.items| == |xs|
           && forall i :: 0 <= i < |xs| ==> ExperienceFilled(cms, xs[i], after.fields.experiences.items[i])
         case _ => after.fields.experiences == before.fields.experiences
       }
  }

  // ---------------------------------------------------------------------
  // "Fully resolved": no position the resolver visits holds a fetchable stub

  predicate NestedSettled(f: Experience) {
    && (f.audience.Some? ==> !f.audience.value.IsFetchableStub())
    && (f.variants.Some? ==> forall i :: 0 <= i < |f.variants.value| ==> !f.variants.value[i].IsFetchableStub())
  }

  predicate ExperienceSettled(x: Ref<Experience>) {
    match x
    case Link(id) => id == ""
    case Resolved(e) => NestedSettled(e.fields)
  }

  predicate FullyResolved(m: Entry<Module>) {
    m.fields.experiences.List? ==>
      forall i :: 0 <= i < |m.fields.experiences.items| ==> ExperienceSettled(m.fields.experiences.items[i])
  }

  // ---------------------------------------------------------------------
  // "Settled against a CMS": a fetchable stub remains only where its fetch failed

  predicate StubFailed<T>(fetch: (string, nat) -> Option<Entry<T>>, depth: nat, r: Ref<T>) {
    r.IsFetchableStub() ==> fetch(r.id, depth).None?
  }

  predicate NestedSettledBy(cms: Cms, f: Experience) {
    && (f.audience.Some? ==> StubFailed(cms.audience, DefaultInclude, f.audience.value))
    && (f.variants.Some? ==>
          forall i :: 0 <= i < |f.variants.value| ==> StubFailed(cms.variant, DefaultInclude, f.variants.value[i]))
  }

  predicate ExperienceSettledBy(cms: Cms, x: Ref<Experience>) {
    match x
    case Link(_) => StubFailed(cms.experience, ExperienceInclude, x)
    case Resolved(e) => NestedSettledBy(cms, e.fields)
  }

  predicate ModuleSettledBy(cms: Cms, m: Entry<Module>) {
    m.fields.experiences.List? ==>
      forall i :: 0 <= i < |m.fields.experiences.items| ==> ExperienceSettledBy(cms, m.fields.experiences.items[i])
  }

  /** A CMS that answers every fetch. */
  ghost predicate TotalCms(cms: Cms) {
    && (forall id: string, depth: nat :: cms.experience(id, depth).Some?)
    && (forall id: string, depth: nat :: cms.audience(id, depth).Some?)
    && (forall id: string, depth: nat :: cms.variant(id, depth).Some?)
  }

  // ---------------------------------------------------------------------
  // The resolver

  /** `Promise.all(xs.map(f))`: each element is resolved on its own and the
      results keep their positions. */
  function MapFetched<A>(f: A -> Fetched<A>, xs: seq<A>): (r: Fetched<seq<A>>)
    ensures |r.value| == |xs|
    ensures forall i :: 0 <= i < |xs| ==> r.value[i] == f(xs[i]).value
    ensures r.requests == [] <==> forall i :: 0 <= i < |xs| ==> f(xs[i]).requests == []
    // the log holds exactly the elements' requests
    ensures forall i, q :: 0 <= i < |xs| && q in f(xs[i]).requests ==> q in r.requests
    ensures forall q :: q in r.requests ==> exists i :: 0 <= i < |xs| && q in f(xs[i]).requests
    decreases |xs|
  {
    if xs == [] then Fetched([], [])
    else
      var head := f(xs[0]);
      var tail := MapFetched(f, xs[1..]);
      assert forall i :: 1 <= i < |xs| ==> xs[i] == xs[1..][i - 1];
      assert forall q :: q in tail.requests ==> exists i :: 1 <= i < |xs| && q in f(xs[i]).requests by {
        forall q | q in tail.requests
          ensures exists i :: 1 <= i < |xs| && q in f(xs[i]).requests
        {
          var k :| 0 <= k < |xs[1..]| && q in f(xs[1..][k]).requests;
          assert q in f(xs[k + 1]).requests;
        }
      }
      Fetched([head.value] + tail.value, head.requests + tail.requests)
  }

  /** The fetches `resolveLink` issues for a list of references, in list
      order: one at `depth` for each stub that has an id. */
  function StubRequests<T>(refs: seq<Ref<T>>, depth: nat): (rs: seq<Request>)
    ensures |rs| <= |refs|
    ensures forall q :: q in rs ==> q.depth == depth
    ensures rs == [] <==> forall i :: 0 <= i < |refs| ==> !refs[i].IsFetchableStub()
    ensures forall i :: 0 <= i < |refs| && refs[i].IsFetchableStub() ==> Request(refs[i].id, depth) in rs
    decreases |refs|
  {
    if refs == [] then []
    else
      var rest := StubRequests(refs[1..], depth);
      assert forall i :: 1 <= i < |refs| ==> refs[i] == refs[1..][i - 1];
      (if refs[0].IsFetchableStub() then [Request(refs[0].id, depth)] else []) + rest
  }

  /** `resolveLink`: a reference without an id or with fields is returned as
      is, without a fetch; otherwise it is fetched, and a failed fetch leaves
      the stub in place. */
  function ResolveLink<T>(fetch: (string, nat) -> Option<Entry<T>>, link: Ref<T>, depth: nat): (r: Fetched<Ref<T>>)
    ensures RefFilled(fetch, depth, link, r.value)
    ensures r.requests == StubRequests([link], depth)
    ensures !link.IsFetchableStub() ==> r == Fetched(link, [])
    ensures link.IsFetchableStub() ==> r.requests == [Request(link.id, depth)]
  {
    if !link.IsFetchableStub() then Fetched(link, [])
    else match fetch(link.id, depth)
      case Some(e) => Fetched(Resolved(e), [Request(link.id, depth)])
      case None => Fetched(link, [Request(link.id, depth)])
  }

  /** One element of `nt_variants`: only a link stub is handed to
      `resolveLink`, at depth 2. */
  function ResolveVariant(cms: Cms, v: Ref<Module>): (r: Fetched<Ref<Module>>)
    ensures RefFilled(cms.variant, DefaultInclude, v, r.value)
    ensures r.requests == StubRequests([v], DefaultInclude)
  {
    if v.Link? then ResolveLink(cms.variant, v, DefaultInclude) else Fetched(v, [])
  }

  /** The variants of an experience fetch exactly their stubs, at depth 2 and
      in list order. */
  lemma {:induction false} VariantRequests(cms: Cms, f: Ref<Module> -> Fetched<Ref<Module>>, vs: seq<Ref<Module>>)
    requires forall v :: f(v) == ResolveVariant(cms, v)
    ensures MapFetched(f, vs).requests == StubRequests(vs, DefaultInclude)
    decreases |vs|
  {
    if vs != [] {
      VariantRequests(cms, f, vs[1..]);
      assert f(vs[0]).requests == StubRequests([vs[0]], DefaultInclude);
      assert [vs[0]][1..] == [];
    }
  }

  /** The nested step for an experience that has fields: its audience stub
      is fetched first, then all variant stubs, each at depth 2. */
  function ResolveNested(cms: Cms, e: Entry<Experience>): (r: Fetched<Entry<Experience>>)
    ensures r.value.sys == e.sys
    ensures r.requests == StubRequests(if e.fields.audience.Some? then [e.fields.audience.value] else [], DefaultInclude)
                          + StubRequests(e.fields.variants.GetOr([]), DefaultInclude)
    ensures e.fields.audience.Some? && e.fields.audience.value.IsFetchableStub() ==>
              |r.requests| > 0 && r.requests[0] == Request(e.fields.audience.value.id, DefaultInclude)
  {
    var f := e.fields;
    var audience: Fetched<Option<Ref<Audience>>> :=
      match f.audience
      case Some(a) =>
        if a.Link? then
          var l := ResolveLink(cms.audience, a, DefaultInclude);
          Fetched(Some(l.value), l.requests)
        else
          Fetched(f.audience, [])
      case None => Fetched(None, []);
    var variants: Fetched<Option<seq<Ref<Module>>>> :=
      match f.variants
      case Some(vs) =>
        (var resolve := v => ResolveVariant(cms, v);
         var m := MapFetched(resolve, vs);
         VariantRequests(cms, resolve, vs);
         Fetched(Some(m.value), m.requests))
      case None => Fetched(None, []);
    Fetched(Entry(e.sys, f.(audience := audience.value, variants := variants.value)),
            audience.requests + variants.requests)
  }

  /** One element of `nt_experiences`: a stub is fetched at depth 3; nested
      references are visited only when the experience ends up with fields,
      and only after its own fetch. */
  function ResolveExperience(cms: Cms, x: Ref<Experience>): (r: Fetched<Ref<Experience>>)
    ensures x.IsFetchableStub() ==> |r.requests| > 0 && r.requests[0] == Request(x.id, ExperienceInclude)
    ensures x.IsFetchableStub() && cms.experience(x.id, ExperienceInclude).Some? ==>
              r.requests == [Request(x.id, ExperienceInclude)]
                            + ResolveNested(cms, cms.experience(x.id, ExperienceInclude).value).requests
    ensures x.IsFetchableStub() && cms.experience(x.id, ExperienceInclude).None? ==>
              r == Fetched(x, [Request(x.id, ExperienceInclude)])
    ensures x.Link? && !x.IsFetchableStub() ==> r == Fetched(x, [])
    ensures x.Resolved? ==> r.requests == ResolveNested(cms, x.entry).requests
  {
    var first := if x.Link? then ResolveLink(cms.experience, x, ExperienceInclude) else Fetched(x, []);
    if first.value.Resolved? then
      var n := ResolveNested(cms, first.value.entry);
      Fetched(Resolved(n.value), first.requests + n.requests)
    else first
  }

  /** `resolveExperiences` for one module: a no-op unless `nt_experiences`
      is an array, whose elements are then resolved in place and in order. */
  function ResolveExperiences(cms: Cms, m: Entry<Module>): (r: Fetched<Entry<Module>>)
    ensures !m.fields.experiences.List? ==> r == Fetched(m, [])
    ensures m.fields.experiences.List? ==>
              && r.value.fields.experiences.List?
              && |r.value.fields.experiences.items| == |m.fields.experiences.items|
              && forall i :: 0 <= i < |m.fields.experiences.items| ==>
                   r.value.fields.experiences.items[i] == ResolveExperience(cms, m.fields.experiences.items[i]).value
    // the module's log holds exactly its experiences' requests
    ensures m.fields.experiences.List? ==>
              && (forall i, q ::
                    0 <= i < |m.fields.experiences.items| && q in ResolveExperience(cms, m.fields.experiences.items[i]).requests
                    ==> q in r.requests)
              && (forall q :: q in r.requests ==>
                    exists i :: 0 <= i < |m.fields.experiences.items| &&
                                q in ResolveExperience(cms, m.fields.experiences.items[i]).requests)
  {
    match m.fields.experiences
    case List(xs) =>
      var resolved := MapFetched(x => ResolveExperience(cms, x), xs);
      Fetched(Entry(m.sys, m.fields.(experiences := List(resolved.value))), resolved.requests)
    case _ => Fetched(m, [])
  }

  // ---------------------------------------------------------------------
  // Every reference is replaced by the CMS's answer, and nothing else changes

  lemma NestedOnlyFills(cms: Cms, e: Entry<Experience>)
    ensures ExperienceFieldsFilled(cms, e.fields, ResolveNested(cms, e).value.fields)
  {
    var after := ResolveNested(cms, e).value.fields;
    if e.fields.variants.Some? {
      var vs := e.fields.variants.value;
      forall i | 0 <= i < |vs|
        ensures RefFilled(cms.variant, DefaultInclude, vs[i], after.variants.value[i])
      {
        assert after.variants.value[i] == ResolveVariant(cms, vs[i]).value;
      }
    }
  }

  lemma ExperienceOnlyFills(cms: Cms, x: Ref<Experience>)
    ensures ExperienceFilled(cms, x, ResolveExperience(cms, x).value)
  {
    if x.Resolved? {
      NestedOnlyFills(cms, x.entry);
    } else if x.IsFetchableStub() && cms.experience(x.id, ExperienceInclude).Some? {
      NestedOnlyFills(cms, cms.experience(x.id, ExperienceInclude).value);
    }
  }

  /** Resolving a module keeps its sys, every field other than
      `nt_experiences`, and the length and order of that list; each element
      is the CMS's answer for its stub, with nested stubs replaced in turn. */
  lemma ResolveOnlyFills(cms: Cms, m: Entry<Module>)
    ensures ModuleFilled(cms, m, ResolveExperiences(cms, m).value)
  {
    if m.fields.experiences.List? {
      var xs := m.fields.experiences.items;
      var after := ResolveExperiences(cms, m).value;
      forall i | 0 <= i < |xs|
        ensures ExperienceFilled(cms, xs[i], after.fields.experiences.items[i])
      {
        ExperienceOnlyFills(cms, xs[i]);
      }
    }
  }

  // ---------------------------------------------------------------------
  // What remains unresolved is what the CMS could not deliver

  lemma RefFilledSettles<T>(fetch: (string, nat) -> Option<Entry<T>>, depth: nat, before: Ref<T>, after: Ref<T>)
    requires RefFilled(fetch, depth, before, after)
    ensures StubFailed(fetch, depth, after)
  {
  }

  lemma FieldsFilledSettle(cms: Cms, before: Experience, after: Experience)
    requires ExperienceFieldsFilled(cms, before, after)
    ensures NestedSettledBy(cms, after)
  {
    if before.audience.Some? {
      RefFilledSettles(cms.audience, DefaultInclude, before.audience.value, after.audience.value);
    }
    if before.variants.Some? {
      var vs := before.variants.value;
      forall i | 0 <= i < |vs|
        ensures StubFailed(cms.variant, DefaultInclude, after.variants.value[i])
      {
        RefFilledSettles(cms.variant, DefaultInclude, vs[i], after.variants.value[i]);
      }
    }
  }

  /** After resolution every fetchable stub left in a module's experiences,
      at any level the resolver visits, is one whose fetch failed. */
  lemma OnlyFailedStubsRemain(cms: Cms, m: Entry<Module>)
    ensures ModuleSettledBy(cms, ResolveExperiences(cms, m).value)
  {
    ResolveOnlyFills(cms, m);
    if m.fields.experiences.List? {
      var xs := m.fields.experiences.items;
      var ys := ResolveExperiences(cms, m).value.fields.experiences.items;
      forall i | 0 <= i < |ys|
        ensures ExperienceSettledBy(cms, ys[i])
      {
        assert ExperienceFilled(cms, xs[i], ys[i]);
        match xs[i]
        case Resolved(e) =>
          FieldsFilledSettle(cms, e.fields, ys[i].entry.fields);
        case Link(id) =>
          if xs[i].IsFetchableStub() && cms.experience(id, ExperienceInclude).Some? {
            var e := cms.experience(id, ExperienceInclude).value;
            FieldsFilledSettle(cms, e.fields, ys[i].entry.fields);
          }
      }
    }
  }

  /** Against a CMS that answers every fetch, one pass leaves no fetchable
      stub anywhere the resolver looks. */
  lemma TotalCmsResolvesAll(cms: Cms, m: Entry<Module>)
    requires TotalCms(cms)
    ensures FullyResolved(ResolveExperiences(cms, m).value)
  {
    OnlyFailedStubsRemain(cms, m);
    var after := ResolveExperiences(cms, m).value;
    if after.fields.experiences.List? {
      var ys := after.fields.experiences.items;
      forall i | 0 <= i < |ys|
        ensures ExperienceSettled(ys[i])
      {
        SettledByTotal(cms, ys[i]);
      }
    }
  }

  lemma SettledByTotal(cms: Cms, x: Ref<Experience>)
    requires TotalCms(cms)
    requires ExperienceSettledBy(cms, x)
    ensures ExperienceSettled(x)
  {
    match x
    case Link(id) =>
      TotalAnswers(cms, id);
    case Resolved(e) =>
      var f := e.fields;
      if f.audience.Some? {
        TotalAnswers(cms, f.audience.value.Id());
      }
      if f.variants.Some? {
        forall i | 0 <= i < |f.variants.value|
          ensures !f.variants.value[i].IsFetchableStub()
        {
          TotalAnswers(cms, f.variants.value[i].Id());
        }
      }
  }

  lemma TotalAnswers(cms: Cms, id: string)
    requires TotalCms(cms)
    ensures cms.experience(id, ExperienceInclude).Some?
    ensures cms.audience(id, DefaultInclude).Some?
    ensures cms.variant(id, DefaultInclude).Some?
  {
  }


  // ---------------------------------------------------------------------
  // No fetch is issued exactly when everything is already resolved

  lemma NestedRequestsIff(cms: Cms, e: Entry<Experience>)
    ensures ResolveNested(cms, e).requests == [] <==> NestedSettled(e.fields)
    ensures ResolveNested(cms, e).requests == [] ==> ResolveNested(cms, e).value == e
  {
    var r := ResolveNested(cms, e);
    var audience := if e.fields.audience.Some? then [e.fields.audience.value] else [];
    assert r.requests == [] <==>
             StubRequests(audience, DefaultInclude) == [] && StubRequests(e.fields.variants.GetOr([]), DefaultInclude) == [];
    if NestedSettled(e.fields) {
      NestedOnlyFills(cms, e);
      var after := r.value.fields;
      if e.fields.variants.Some? {
        assert after.variants.value == e.fields.variants.value;
      }
      assert after == e.fields;
    }
  }

  lemma ExperienceRequestsIff(cms: Cms, x: Ref<Experience>)
    ensures ResolveExperience(cms, x).requests == [] <==> ExperienceSettled(x)
    ensures ResolveExperience(cms, x).requests == [] ==> ResolveExperience(cms, x).value == x
  {
    if x.Resolved? {
      NestedRequestsIff(cms, x.entry);
    }
  }

  /** A module issues no fetch exactly when it is fully resolved, and then it
      comes back unchanged. */
  lemma NoRequestsIffFullyResolved(cms: Cms, m: Entry<Module>)
    ensures ResolveExperiences(cms, m).requests == [] <==> FullyResolved(m)
    ensures FullyResolved(m) ==> ResolveExperiences(cms, m) == Fetched(m, [])
  {
    if m.fields.experiences.List? {
      var xs := m.fields.experiences.items;
      forall i | 0 <= i < |xs|
        ensures ResolveExperience(cms, xs[i]).requests == [] <==> ExperienceSettled(xs[i])
        ensures ResolveExperience(cms, xs[i]).requests == [] ==> ResolveExperience(cms, xs[i]).value == xs[i]
      {
        ExperienceRequestsIff(cms, xs[i]);
      }
      if FullyResolved(m) {
        var after := ResolveExperiences(cms, m).value;
        assert after.fields.experiences.items == xs;
        assert after.fields == m.fields;
      }
    }
  }

  // ---------------------------------------------------------------------
  // Which fetches a module causes

  /** An experience fetches itself at depth 3, and only when it is a stub
      with an id; everything else it fetches is nested, at depth 2. */
  lemma ExperienceRequestShape(cms: Cms, x: Ref<Experience>)
    ensures forall q :: q in ResolveExperience(cms, x).requests ==>
              q.depth == DefaultInclude || (x.IsFetchableStub() && q == Request(x.id, ExperienceInclude))
    ensures x.IsFetchableStub() ==> Request(x.id, ExperienceInclude) in ResolveExperience(cms, x).requests
  {
    var e: Option<Entry<Experience>> :=
      if x.Resolved? then Some(x.entry)
      else if x.IsFetchableStub() then cms.experience(x.id, ExperienceInclude) else None;
    if e.Some? {
      var n := ResolveNested(cms, e.value).requests;
      assert forall q :: q in n ==> q.depth == DefaultInclude;
    }
  }

  /** The fetches of a module are the depth-3 fetch of each experience stub
      with an id, and otherwise only depth-2 fetches of nested references. */
  lemma ModuleRequestShape(cms: Cms, m: Entry<Module>)
    requires m.fields.experiences.List?
    ensures var xs := m.fields.experiences.items;
            var rs := ResolveExperiences(cms, m).requests;
            && (forall i :: 0 <= i < |xs| && xs[i].IsFetchableStub() ==> Request(xs[i].id, ExperienceInclude) in rs)
            && (forall q :: q in rs && q.depth != DefaultInclude ==>
                  exists i :: 0 <= i < |xs| && xs[i].IsFetchableStub() && q == Request(xs[i].id, ExperienceInclude))
  {
    var xs := m.fields.experiences.items;
    forall i | 0 <= i < |xs|
      ensures xs[i].IsFetchableStub() ==> Request(xs[i].id, ExperienceInclude) in ResolveExperience(cms, xs[i]).requests
      ensures forall q :: q in ResolveExperience(cms, xs[i]).requests ==>
                q.depth == DefaultInclude || (xs[i].IsFetchableStub() && q == Request(xs[i].id, ExperienceInclude))
    {
      ExperienceRequestShape(cms, xs[i]);
    }
  }

  // ---------------------------------------------------------------------
  // Resolving twice against the same CMS answers equals resolving once

  lemma ResolveLinkIdempotent<T>(fetch: (string, nat) -> Option<Entry<T>>, link: Ref<T>, depth: nat)
    ensures ResolveLink(fetch, ResolveLink(fetch, link, depth).value, depth).value == ResolveLink(fetch, link, depth).value
  {
  }

  /** A filled reference is left alone by a second filling. */
  lemma RefFilledTwice<T>(fetch: (string, nat) -> Option<Entry<T>>, depth: nat, a: Ref<T>, a1: Ref<T>, a2: Ref<T>)
    requires RefFilled(fetch, depth, a, a1) && RefFilled(fetch, depth, a1, a2)
    ensures a2 == a1
  {
  }

  /** Filled experience fields are left alone by a second filling. */
  lemma FieldsFilledTwice(cms: Cms, f: Experience, f1: Experience, f2: Experience)
    requires ExperienceFieldsFilled(cms, f, f1) && ExperienceFieldsFilled(cms, f1, f2)
    ensures f2 == f1
  {
    if f.audience.Some? {
      RefFilledTwice(cms.audience, DefaultInclude, f.audience.value, f1.audience.value, f2.audience.value);
    }
    if f.variants.Some? {
      var vs, vs1, vs2 := f.variants.value, f1.variants.value, f2.variants.value;
      forall i | 0 <= i < |vs|
        ensures vs2[i] == vs1[i]
      {
        RefFilledTwice(cms.variant, DefaultInclude, vs[i], vs1[i], vs2[i]);
      }
      assert vs2 == vs1;
    }
  }

  lemma NestedIdempotent(cms: Cms, e: Entry<Experience>)
    ensures ResolveNested(cms, ResolveNested(cms, e).value).value == ResolveNested(cms, e).value
  {
    var once := ResolveNested(cms, e).value;
    NestedOnlyFills(cms, e);
    NestedOnlyFills(cms, once);
    FieldsFilledTwice(cms, e.fields, once.fields, ResolveNested(cms, once).value.fields);
  }

  lemma ExperienceIdempotent(cms: Cms, x: Ref<Experience>)
    ensures ResolveExperience(cms, ResolveExperience(cms, x).value).value == ResolveExperience(cms, x).value
  {
    var first := if x.Link? then ResolveLink(cms.experience, x, ExperienceInclude) else Fetched(x, []);
    if first.value.Resolved? {
      NestedIdempotent(cms, first.value.entry);
    }
  }

  /** With a deterministic CMS, a second resolution pass changes nothing:
      the first pass already filled every stub the CMS can deliver. */
  lemma {:induction false} ResolveIdempotent(cms: Cms, m: Entry<Module>)
    ensures ResolveExperiences(cms, ResolveExperiences(cms, m).value).value == ResolveExperiences(cms, m).value
  {
    if m.fields.experiences.List? {
      var xs := m.fields.experiences.items;
      var once := ResolveExperiences(cms, m).value;
      var twice := ResolveExperiences(cms, once).value;
      var ys := once.fields.experiences.items;
      var zs := twice.fields.experiences.items;
      forall i | 0 <= i < |xs|
        ensures zs[i] == ys[i]
      {
        ExperienceIdempotent(cms, xs[i]);
      }
      assert zs == ys;
    }
  }
}

=== FILE: schema.dfy ===
/** The slice of a Contentful content-type definition that the migration
    scripts read and edit, held in memory; the management API is left out. */
module Schema {
  import opened Wrappers

  /** One entry of a `validations` list: a link-type restriction and/or an
      `in` list of allowed values. */
  datatype Validation = Validation(linkContentType: Option<seq<string>>, allowedValues: Option<seq<string>>)

  /** The `items` of an Array field. */
  datatype Items = Items(itemType: string, linkType: Option<string>, validations: Option<seq<Validation>>)

  datatype Field = Field(
    id: string,
    name: string,
    fieldType: string,
    required: bool,
    localized: bool,
    linkType: Option<string>,
    items: Option<Items>,
    validations: Option<seq<Validation>>,
    defaultValue: Option<map<string, string>>)

  datatype ContentType = ContentType(id: string, name: string, displayField: string, fields: seq<Field>)

  /** `fields.find(f => f.id === id)`, as the position found. */
  function FindField(fields: seq<Field>, id: string): (r: Option<nat>)
    ensures r.None? <==> forall i :: 0 <= i < |fields| ==> fields[i].id != id
    ensures r.Some? ==> r.value < |fields| && fields[r.value].id == id &&
                        forall j :: 0 <= j < r.value ==> fields[j].id != id
    decreases |fields|
  {
    if fields == [] then None
    else if fields[0].id == id then Some(0)
    else match FindField(fields[1..], id)
      case None => None
      case Some(k) => Some(k + 1)
  }

  /** The `fields.find` result depends only on the ids of the fields. */
  lemma FindFieldByIds(a: seq<Field>, b: seq<Field>, id: string)
    requires |a| == |b| && forall i :: 0 <= i < |a| ==> a[i].id == b[i].id
    ensures FindField(a, id) == FindField(b, id)
  {
  }
}

=== FILE: strings.dfy ===
/** String helpers used by the request handlers. */
module Strings {

  predicate StartsWith(s: string, prefix: string) {
    |prefix| <= |s| && s[..|prefix|] == prefix
  }

  /** `Array.prototype.join(sep)`. */
  function Join(parts: seq<string>, sep: string): string
    decreases |parts|
  {
    if parts == [] then ""
    else if |parts| == 1 then parts[0]
    else parts[0] + sep + Join(parts[1..], sep)
  }
}

=== FILE: wrappers.dfy ===
/** The optional-value datatype used for every `?`-typed field and every
    oracle that may fail. */
module Wrappers {

  datatype Option<+T> = None | Some(value: T) {

    /** The TypeScript `x ?? d`: the present value, or `d` when absent. */
    function GetOr(default: T): T {
      match this
      case Some(v) => v
      case None => default
    }
  }
}
